=== FILE: README.md ===
# Snakes and ladders: a Dafny model of the simulation engine

This project models the core of a command-line Snakes-and-Ladders simulator written in C. The program reads a board from the command line or a configuration file:
- its width and height;
- the die's side count and weight distribution;
- the snakes and ladders, written `a-b`.

It then plays many games with a weighted die and reports statistics. The model follows the C files under `src/`. One Dafny module per file, all pure functions over immutable datatypes:

- `Numbers` — `strtouint64`: `strtoul` with C-locale whitespace, an optional sign (a minus negates modulo 2^64) and error codes 1 to 4.
- `Strings` — `strsplitnext`, `strduplicate`, `iswhitespace`, and the split/join pair the comma and dash parsers use.
- `DynArray` — the growable array of `src/array.c` as contents, capacity and element size.
- `Distributions` — `strtodistr`, `distr_build` and the uniform and two-dice presets.
- `Dice` — `die_create` with exact real probabilities, and `dice` with the uniform draw `r` in `[0, 1)` given as a parameter.
- `Graph` — `adjmat_create`: the ±1 adjacency matrix, held as a sequence of rows.
- `SnakesAndLadders` — `issnake`, `isladder` and `strtosol`.
- `Games` — `game_setup`: dimension and die checks, the shortcut validation loop, and the 1-based to 0-based edges.
- `Simulation` — `simulation_create`, `simulator_create` (the per-cell shortcut tables `solidxs` and `soldsts`) and `simulation_run`. The game loop is driven by a roll oracle: roll number `k` of a game is `rolls[k]`.
- `Statistics` — `stats_create` and `stats_analyze` as a left fold over the simulations, with averages and rates as exact reals.
- `Cli` — `filepos_advance`, the configuration-file tokenizer over a string instead of a `FILE*`, the configuration merge, the option range check, the zero-weight-sum check and `cli_read_sals`.

NULL pointers the source branches on are `Option` values. Error codes are `Result` failures carrying the source's numbers. A message followed by `exit(1)` is a failure value naming the reason.

## Model

| member | source | states |
|---|---|---|
| Numbers.ParseUint64 | src/numbers.c:23-38 | NULL is error 1. An empty string is error 3. A string of decimal digits gives its value when that fits in 64 bits and error 2 when it does not. Every result fits in 64 bits and every error is 1 to 4. |
| Numbers.ParseToDecimal | src/numbers.c:23-38 | Round trip: every 64-bit value written in decimal parses back to itself. |
| Numbers.NoDigitsIsCode3 | src/numbers.c:23-38 | Text that starts with something other than whitespace, a sign or a digit is "not a number" (3). |
| Numbers.TrailingIsCode4 | src/numbers.c:23-38 | A valid number followed by a non-digit is "trailing characters" (4). |
| Strings.SplitNext | src/str.c:6-17 | NULL gives two NULLs. Without the split character the whole string comes back with NULL. Otherwise: prefix, character and suffix rebuild the original, and the prefix holds no split character. |
| Strings.Duplicate | src/str.c:19-26 | NULL gives NULL. Otherwise the copy has the original's length and every character. |
| Strings.IsWhitespace | src/str.c:28-40 | True for exactly space, tab, newline, carriage return, form feed and vertical tab. |
| Strings.JoinSplitAll | src/distribution.c:58-77 | The tokens the `do { strsplitnext } while` loop visits, joined with the separator, restore the string. |
| Strings.SplitAllJoin | src/distribution.c:58-77 | Splitting a join of separator-free tokens gives the tokens back. |
| DynArray.Create | src/array.c:21-28 | An element size of 0 gives capacity 0. Otherwise the array is empty with the requested capacity. |
| DynArray.Clear | src/array.c:52-56 | Size becomes 0; capacity and element size are kept. |
| DynArray.Free | src/array.c:38-50 | Size and capacity become 0; the element size is kept. |
| DynArray.Reserve | src/array.c:62-73 | Never shrinks. It succeeds without change when the capacity already suffices. It fails only for element size 0, and the contents never change. |
| DynArray.Add | src/array.c:95-104 | Appends at the end, keeping the earlier elements. A full array grows to 2 when its capacity is below 2, else by half its capacity. It fails only for element size 0. |
| DynArray.Get | src/array.c:75-79 | The element at the index, or NULL exactly when the index is past the end. |
| DynArray.Rmv | src/array.c:121-129 | An out-of-range index returns false and changes nothing. Otherwise exactly that element is removed and the rest keep their order. |
| DynArray.Find | src/array.c:106-115 | The position of the first equal element; NULL exactly when no element is equal. |
| DynArray.Copy | src/array.c:131-139 | After a successful copy the destination holds the source's contents. Its capacity is the larger of its own and the source's size. |
| DynArray.RmvUndoesAdd | src/array.c:95-129 | Removing the element just added restores the previous contents. |
| DynArray.FindAfterAdd | src/array.c:95-115 | An element that was not present is found at the position where it was added. |
| Distributions.LookupAsWritten | src/distribution.c:11-15 | The preset search as written. It finds "uniform" and "twodice". For every other string it reaches a NULL name before the table ends, so it never reports "not found". |
| Distributions.LookupPreset | src/distribution.c:45-48 | The search over the named entries only: "uniform" and "twodice" give their presets, and every other string gives none. |
| Distributions.StrToDistr | src/distribution.c:36-80 | NULL is error 1. An exact preset name gives that preset with no weights. Otherwise the text gives one weight per comma-separated token, in order, iff every token is a 64-bit number; a token error `e` is reported as `e + 1`. |
| Distributions.StrToDistrFormat | src/distribution.c:36-80 | Round trip: a non-empty list of 64-bit weights written `w1,w2,...` parses back to the same weights with no preset. |
| Distributions.UniformWeights | src/distribution.c:127-139 | The uniform preset gives exactly `dieSides` weights, all 1, summing to `dieSides`. |
| Distributions.BuildTwoDice | src/distribution.c:141-171 | No sides is error 2 and an odd count is error 3. It succeeds iff the side count is positive and even. |
| Distributions.TwoDiceWeights | src/distribution.c:152-170 | For `2k` sides the weights are `i` for `i < k` and `2k - i` from `k` on. |
| Distributions.TwoDiceWeightSum | src/distribution.c:152-170 | The two-dice weights for `2k` sides add up to `k * k`, one per pair of faces of two `k`-sided dice. |
| Distributions.TwoSixSidedDice | src/distribution.c:152-170 | Twelve sides give `0,1,2,3,4,5,6,5,4,3,2,1`. |
| Distributions.Build | src/distribution.c:82-125 | NULL is error 1, and every error is 1, 3, 5 or 6. A success has exactly one weight per side and keeps the preset. |
| Distributions.BuildWeightList | src/distribution.c:86-101 | A weight list longer than the side count is error 3. Otherwise it is kept in order and padded with zeros. |
| Distributions.BuildPresets | src/distribution.c:103-122 | The uniform preset is rebuilt whatever it held. Two-dice with 0 sides is 5 and with an odd count is 6. The upstairs and downstairs presets are error 3. A positive even side count gives exactly the two-dice builder's triangular weights. |
| Dice.Create | src/die.c:13-26 | NULL gives the empty die. Otherwise there is one probability per weight, each non-negative. With a positive weight sum, probability times sum is the weight and the probabilities add up to 1. |
| Dice.CreateIsEmpty | src/die.c:35-37 | A built die is empty iff its distribution was NULL or had no weights. A NULL die is not empty. |
| Dice.Roll | src/die.c:39-51 | The roll is the first side whose running probability exceeds `r`, or the side count when none does. For a non-empty die it lies in `[1, sides]`. |
| Dice.RollInterval | src/die.c:39-51 | With a positive weight sum, side `k` is rolled iff `r` lies in the `k`-th interval of the cumulative probabilities. |
| Dice.ZeroWeightNeverRolled | src/die.c:43-49 | A side of weight 0 is never rolled while the weight sum is positive. |
| Dice.AllZeroRollsLast | src/die.c:39-51 | When every weight is 0 each probability is 0 and every roll gives the side count. |
| Dice.WrappedWeightSum | src/die.c:20-24 | As written, the 64-bit weight sum of `1, 2^64 - 1` wraps to 0, and side 1 is rolled for every `r`. |
| Dice.ExactWeightSum | src/die.c:20-24 | With the exact sum the same weights roll side 2 for every `r` from `2^-64` on. |
| Graph.Create | src/graph.c:7-23 | An `n`-vertex matrix is `n` by `n`; 0 vertices give no rows. |
| Graph.CreateEntries | src/graph.c:14-21 | Every entry is 0 unless an edge touches it. The last edge touching an entry decides it: 1 for `a -> b`, and -1 for `b -> a`, written second. |
| Graph.EntryRefSources | src/graph.c:17-21 | Entries are -1, 0 or 1. A 1 comes from an edge `a -> b`, a -1 from an edge `b -> a`, and a diagonal entry is never 1. |
| Graph.EntryRefDisjoint | src/graph.c:17-21 | For edges that share no vertex the matrix holds exactly the edges: 1 for `a -> b`, -1 for `b -> a`, 0 where there is neither. |
| Graph.OnePositivePerRow | src/graph.c:17-21 | For such edges a row has at most one positive entry. |
| SnakesAndLadders.IsLadder | src/snakesandladders.c:12-14 | A ladder is a snake read the other way round: reversing a present shortcut turns `isladder` into `issnake`. NULL is no ladder. |
| SnakesAndLadders.SnakeOrLadder | src/snakesandladders.c:8-14 | `issnake` and `isladder` are never both true. A present shortcut is one of them iff it is not a self-loop. Reversing a shortcut swaps the two, and NULL is neither. |
| SnakesAndLadders.StrToSol | src/snakesandladders.c:16-54 | NULL is 1 and text without `-` is 3. A left-part error `e` is `e + 2` and a right-part error is `e + 5`. Every failure yields `0-0`. Code 0 holds iff both parts parse, and then the shortcut is exactly the two parsed values. |
| SnakesAndLadders.StrToSolFormat | src/snakesandladders.c:16-54 | Round trip: the text `a-b` of two 64-bit cells parses back to the shortcut with code 0. |
| SnakesAndLadders.ZeroCellsAccepted | src/snakesandladders.c:36-53 | `0-0` is accepted: zero cells are not rejected here. |
| SnakesAndLadders.RightPartNoDigits | src/snakesandladders.c:43-49 | A right part without digits is code 8. |
| SnakesAndLadders.RightPartTrailing | src/snakesandladders.c:43-49 | A right part with trailing characters is code 9. |
| Games.CellCount | src/game.c:18-22 | The cell count is `width * height` in 64 bits: the exact product whenever it fits. |
| Games.CheckSol | src/game.c:36-69 | One shortcut passes iff both ends are cells other than the last, they differ, and no earlier shortcut shares a cell with it. Each rejection names the condition the source checks. |
| Games.Validate | src/game.c:36-69 | No error iff every shortcut passes. Otherwise the first failing shortcut is reported, with every earlier one passing. |
| Games.ValidateIffValid | src/game.c:36-69 | Passing every check is the same as the reference validity: all shortcuts fit and no two share a cell. |
| Games.ZeroBased | src/game.c:72-76 | Each edge is its shortcut with both ends decremented by one. |
| Games.Setup | src/game.c:9-81 | NULL gives the zero game. Dimensions below 2 are rejected first and an empty die next. Success iff every shortcut is valid; otherwise the first invalid one is reported. A success has the given dimensions, die and exact-ending flag, and the matrix of the 0-based shortcuts. |
| Games.ValidEdges | src/game.c:36-78 | The edges of validated shortcuts lie on the board, share no cell, and avoid the last cell. |
| Games.BoardEdges | src/game.c:72-78 | On a set-up board entry `(a, b)` is 1 iff the shortcut `a+1 - b+1` was given, and the last cell's row has no positive entry. |
| Simulation.FirstPositive | src/simulator.c:66-72 | The first column of a row with a positive entry; none iff the row has none. |
| Simulation.TablesUpToMatch | src/simulator.c:63-77 | After `c` cells of the table loop, cell `k` has an index iff row `k` has a positive entry. The index counts the earlier cells with one, and `soldsts` at that index is the row's first positive column. |
| Simulation.BuildTablesFit | src/simulator.c:63-77 | The tables have one entry per cell, every index is in range, and every destination is a cell of the board. |
| Simulation.TablesOfShortcuts | src/simulator.c:63-77 | For validated shortcuts, cell `c` has a table entry iff a shortcut starts at cell `c + 1`. The entry leads to that shortcut's destination, which is never the last cell. |
| Simulation.CreateSimulation | src/simulator.c:14-30 | A new simulation has no rolls, is not aborted, and has one usage counter per shortcut, all 0. |
| Simulation.CreateSimulator | src/simulator.c:50-89 | A NULL game or no simulations give the empty simulator. Otherwise it holds the game, the dice limit, the tables of the game's matrix, and `simcount` fresh simulations. |
| Simulation.SetupPlayable | src/simulator.c:50-77 | Every board that the setup accepts has a square matrix the simulator can read. |
| Simulation.SimulatorOfGame | src/simulator.c:50-89 | The simulator of a set-up game fits its board. Its tables list exactly the game's shortcuts, and none of them leads to the last cell. |
| Simulation.Step | src/simulator.c:172-193 | One roll is appended. The game is won iff the roll reaches the last cell exactly, or passes it without exact ending. With exact ending an overshoot leaves the player in place. Otherwise the player moves and follows at most one shortcut, whose counter alone grows by one. |
| Simulation.Loop | src/simulator.c:172-193 | The loop ends on the last cell or at the dice limit. It takes the oracle's rolls in order, never more than the limit, and uses at most one shortcut per roll. |
| Simulation.Run | src/simulator.c:158-199 | NULL is 1. Otherwise the player starts at 0, the loop runs, and the game is aborted iff it hit the dice limit off the last cell. |
| Simulation.RunFresh | src/simulator.c:158-199 | A fresh game ends won or aborted, never both: it is aborted iff the player is not on the last cell, even with a dice limit of 0. It rolls at most the limit, takes the oracle's rolls, and uses at most one shortcut per roll. |
| Simulation.StepStaysBeforeLast | src/simulator.c:177-192 | With shortcuts that avoid the last cell, a roll that does not end the game leaves the player before it. |
| Simulation.WalkWithoutShortcuts | src/simulator.c:172-193 | On a board without shortcuts or exact ending the player ends at the sum of the rolls, capped at the last cell. |
| Simulation.RunAll | src/simulator.c:100-156 | Every simulation is run on its own roll oracle; nothing else in the simulator changes. |
| Statistics.AbsorbAllSummary | src/statistics.c:73-77 | A running summary adds the values' sum. Its minimum and maximum bound every value and are the start value or one of the values. |
| Statistics.ZeroMinStaysZero | src/statistics.c:93-94 | A minimum that starts at 0 stays 0 whatever the values. |
| Statistics.MaxMinFindsLeast | src/statistics.c:13 | A minimum that starts at `ULONG_MAX` ends at the least of the values. |
| Statistics.SolTableCells | src/statistics.c:47-57 | Every shortcut entry is `(c + 1, soldsts[idx] + 1)` for a cell `c` that has a table entry. |
| Statistics.SnakesPlusLadders | src/statistics.c:98-103 | Without self-loops, snake uses plus ladder uses are all uses. |
| Statistics.FoldOutcomes | src/statistics.c:63-77 | The fold counts the wins, wins plus losses grow by the number of simulations, and the roll-count summary takes in every roll count. |
| Statistics.FoldTotals | src/statistics.c:84-125 | The usage summaries take in each simulation's total, snake and ladder uses. |
| Statistics.FoldSals | src/statistics.c:88-96 | A shortcut's entry summarises that shortcut's uses over all simulations. |
| Statistics.FoldShortestOf | src/statistics.c:79-81 | The kept roll sequence is the one the first-shortest rule selects. |
| Statistics.ShortestFirstLeast | src/statistics.c:79-81 | The kept sequence is empty iff no game was won. Otherwise it is the rolls of the first won game of least length. |
| Statistics.NoWinsAllAborted | src/statistics.c:66-70 | No wins means every simulation was aborted. |
| Statistics.RatesAddUp | src/statistics.c:139-144 | Rates of parts add up to the rate of the whole; the whole is 100 percent. |
| Statistics.Finish | src/statistics.c:128-144 | The averages are sum over simulations. The win and loss rates are percentages of the simulations. The snake and ladder rates are set only when some shortcut was used; all counts are kept. |
| Statistics.Start | src/statistics.c:11-57 | Nothing counted yet, the roll-count minimum at `ULONG_MAX`, and one entry per shortcut. |
| Statistics.AnalyzeWith | src/statistics.c:27-147 | NULL or no simulations stop the analysis. Otherwise it reports the simulation count, the dice limit and one entry per shortcut. |
| Statistics.AnalyzeCounts | src/statistics.c:60-77 | Wins plus losses equal the simulations and wins are the won games. The roll-count sum, minimum and maximum are exact. The win and loss rates add up to 100. |
| Statistics.AnalyzeUses | src/statistics.c:88-111 | Each shortcut's and the total usage sum is the sum over all simulations; each maximum is the largest use. |
| Statistics.AsWrittenUsageMinima | src/statistics.c:11-17 | As written, every usage minimum reports 0. |
| Statistics.CorrectedUsageMinima | src/statistics.c:88-111 | With the minima starting at `ULONG_MAX`, each reports the least use of any simulation. |
| Statistics.UsageMinimumGap | src/statistics.c:107-111 | When every game used a shortcut, the minimum is 0 as written and positive when corrected. |
| Statistics.UsageMinimumExample | src/statistics.c:107-111 | One game that used one shortcut once: the minimum is 0 as written and 1 when corrected. |
| Statistics.OneUseSimulatorAnalyzable | src/statistics.c:27-35 | The one-game, one-shortcut simulator can be analysed and used its shortcut once. |
| Statistics.AnalyzeSnakesAndLadders | src/statistics.c:98-144 | Without self-loops, snake uses plus ladder uses are all uses. Their rates add up to 100 when any shortcut was used, and stay 0 otherwise. |
| Cli.CreatePos | src/cli.c:26-28 | A new position is row 1, column 1 of the file. |
| Cli.Advance | src/cli.c:30-39 | A newline moves to column 1 of the next row; any other character moves one column right. NULL stays NULL, and the file is kept. |
| Cli.AdvanceAllPosition | src/cli.c:30-39 | After reading a text the row has grown by its newlines; without a newline, the column has grown by its length. |
| Cli.AdvanceAfterNewline | src/cli.c:30-39 | After the last newline the column is one more than the characters since. |
| Cli.ReadArg | src/cli.c:505-611 | No argument iff the input is all whitespace. Otherwise an argument and strictly less input, or error 2 or 3. |
| Cli.ScanEscaped | src/cli.c:530-545 | Outside quotes a backslash is dropped and the next character is kept literally. |
| Cli.ScanQuoted | src/cli.c:532-541 | Inside a quoted section everything up to the matching quote is kept literally. |
| Cli.QuotedSection | src/cli.c:532-541 | A quoted section drops its quote marks and keeps its content, which may be empty. |
| Cli.ScanErrors | src/cli.c:570-589 | Input ending in an escape is error 2; input ending inside a quoted section is error 3. |
| Cli.ReadWord | src/cli.c:511-549 | An unquoted word followed by whitespace is read without it, and reading resumes after it. |
| Cli.ReadEncoded | src/cli.c:505-611 | An escaped or quoted encoding of any argument is read back as that argument. |
| Cli.ReadAllLine | src/cli.c:430-503 | Round trip: a line of encoded arguments is read back as exactly those arguments. |
| Cli.ConfigArgs | src/cli.c:430-503 | The arguments are the file path followed by the content's arguments. The read succeeds iff the content tokenizes, and a failure carries the tokenizer's error. |
| Cli.ReadAllLineThenError | src/cli.c:477-499 | Reading stops at the first argument the tokenizer rejects: after any well-formed arguments, that argument's error 2 or 3 is the error of the whole read. |
| Cli.ConfigArgsError | src/cli.c:477-499 | A configuration whose content breaks off in a bad argument is rejected with that argument's error, whatever arguments came before it. |
| Cli.ParseOptUint64 | src/cli.c:613-639 | A value is accepted iff it is a 64-bit number within `[valmin, valmax]`. Each rejection names its cause: NULL, out of range (code 2), not a number (codes 3 and 4), below the minimum or above the maximum, with the parsed value. |
| Cli.WeightSumIsZero | src/cli.c:124-131 | The early-exit loop reports "zero" iff the weights sum to 0. |
| Cli.BuildDistribution | src/cli.c:94-131 | The distribution is built for the die's sides. A `distr_build` failure is reported with its own code. A built distribution is rejected iff its weights sum to 0, and otherwise replaces the old one with nothing else changed. |
| Cli.Merge | src/cli.c:184-206 | Only settings flagged in the configuration override the outer ones; the flags, file and other counts are kept. |
| Cli.MergeSalsAppend | src/cli.c:185-206 | Configuration shortcuts replace an empty outer list and are appended to any other: either way the outer ones come first. A configuration without flags changes nothing. |
| Cli.ReadSals | src/cli.c:641-688 | It succeeds iff every argument is a shortcut, and the shortcuts are appended in order. A failure carries the nonzero code of the first argument that does not parse. The shortcut flag is set when there are arguments. |
| Cli.ParseSals | src/cli.c:641-688 | The shortcuts of all arguments in order, or the code of the first argument that does not parse. |

## Left out

- Threads: `simulate` spawns one thread per simulation. `Simulation.RunAll` runs them one after another, each with its own roll oracle.
- Random numbers: `tserand48` is replaced by the draw `r` passed to `Dice.Roll` and by a sequence of sides per game. The oracle's rolls are any sides of at least 1; nothing ties them to the die's probabilities.
- Floating point: probabilities, averages and rates are exact reals. IEEE rounding is not modelled; neither is the NaN that `0 / 0.0` gives when all weights are 0. The model uses probability 0 there, and `dice` behaves the same because every comparison with NaN is false.
- Allocation failures are not modelled; every allocation succeeds. This removes `strtodistr` error 7, `distr_build` error 4 and a `false` from `array_reserve` for a nonzero element size.
- I/O: opening and reading the configuration file, `getopt` and its global state, printing and `exit` are not modelled. The tokenizer reads a string, and the option loop of `cli_parse_opts` is left out apart from the merge.
- Iterations, dice limit and bar length: no option sets them in `src/cli.c`, and they stay 0. `Cli.InitialArgs` keeps them at 0 and nothing in the model depends on them.
- The assetmanager, the loading screen, terminal control and every printer are left out: they are cleanup and output only.
- Integer widths: `Numbers.ParseUint64` and `Games.CellCount` model 64-bit arithmetic. The wrapped 64-bit weight sum `Dice.WeightSum64` appears only in `Dice.RollAsWritten`. The statistics counters are unbounded integers.
- Dice.Create: divides by the exact weight sum. The wrapped sum is only in `Dice.RollAsWritten` (Findings row 3). So for weights summing to 2^64 or more, the die of `Games.Setup` and of the whole simulation is the corrected one, not the one `die_create` builds.
- Statistics.AnalyzeCounts: requires every roll count to fit in 64 bits, for the roll-count minimum that starts at `ULONG_MAX`.
- Statistics.ShortestFirstLeast: requires won games to have at least one roll, which holds on every board of at least one cell. On a 0-cell board a won game with no rolls never replaces the empty kept sequence.
- Simulation.CreateSimulator: every simulation's back pointer dangles in the source. `simulation_create(&simulator)` (src/simulator.c:54-81) stores the address of `simulator_create`'s local `simulator`. That local's lifetime ends at `return simulator;` (line 88). `simulation_run` then reads the game, the dice limit and the tables through it (lines 163-191), which has no defined behaviour. The model drops the back pointer and hands `Simulation.Run` the simulator that `simulator_create` returns, which is what the code evidently intends.
- DynArray.Copy: takes the destination and the source as separate values. For `array_copy(a, a)` the source's `array_clear(dst)` also empties the source, so the copy ends empty, while `DynArray.Copy(a, a)` keeps the contents. The only call in the core (src/statistics.c:81) passes distinct arrays.
- Graph.Create: requires every edge to lie inside the matrix. `adjmat_create` writes outside it otherwise, but the setup validates edges first.
- Games.Setup: leaves the caller's shortcuts unchanged. The source decrements them in place (src/game.c:72-76) and hands them to the matrix. The model passes the decremented copy `Games.ZeroBased`.
- Distributions.Build: only a distribution from the command line is built. `cli_parse_args` skips the build for a configuration file's arguments, so `Cli.BuildDistribution` is applied to the merged command line only.
- Cli.ReadArg: reads a `char` string, so the `int` value `EOF` cannot be confused with a character. The source reads `fgetc` into a `char`, where a `0xFF` byte looks like `EOF` on platforms with signed `char`. It also keeps a NUL character inside an argument. The source stores it like any other character (src/cli.c:550), but the returned C string ends there, so for the content `a\0b c` the source's argument is `a` and the model's is `a\0b`.
- Cli.Advance: the character counts are unbounded; `size_t` rows and columns are taken never to wrap.
- `cli_parse_args` prints messages 5 and 6 of `distr_build` the other way round from the codes (src/cli.c:94-122). Only the codes are modelled.
- The headers disagree with the code in several places; the model follows the code.
  - `include/simulator.h:21-37` describes fields the code does not have.
  - `include/distribution.h:195-197` swaps the two-dice codes.
  - `include/distribution.h:115-117` describes the upstairs and downstairs presets, which the code rejects with 3.
  - `include/snakesandladders.h` numbers the right-part errors 8 to 11 instead of 7 to 9.
  - `include/die.h:34` says a NULL die is empty; the code says it is not.

## Findings

| source | as written | input that shows it | evidently intended | confidence | as-written member | corrected member |
|---|---|---|---|---|---|---|
| src/statistics.c:11-17 | The usage minima of every shortcut, all uses, snakes and ladders start at 0, and the `>` update can never lower them | one game that used one shortcut once (`Statistics.OneUseSimulator`) | minima start at `ULONG_MAX` like the roll-count minimum, and report the least use | not executed | Statistics.AsWrittenUsageMinima | Statistics.CorrectedUsageMinima |
| src/distribution.c:11-15 | Entries 0, 3 and 4 of the preset table have a NULL name. The search compares entries 1 to 4 with `strcmp`, which has no defined behaviour for NULL | any weight list, e.g. `"1,2"`: it matches neither name and reaches entry 3 | compare only entries that have a name | not executed | Distributions.LookupAsWritten | Distributions.LookupPreset |
| src/die.c:20-24 | The weight sum is a 64-bit `size_t` and wraps. `cli_parse_args` only checks that some weight is nonzero | weights `1,18446744073709551615`: the sum wraps to 0, side 1 gets an infinite probability and is always rolled | divide by the exact sum, so side 2 is rolled almost always | not executed | Dice.WrappedWeightSum | Dice.ExactWeightSum |

=== FILE: cli.dfy ===
/** The pure parts of the command line interface (src/cli.c): file
    positions, the shell-like tokenizer for configuration files, the range
    check of numeric options, the distribution check after option parsing,
    the merge of configuration-file settings and the reading of shortcuts.
    The tokenizer reads a `string` in place of a `FILE*`. */
module Cli {
  import opened Common
  import Strings
  import Numbers
  import Distributions
  import SnakesAndLadders

  /* ---------------------------------------------------------------- */
  /* File positions                                                   */
  /* ---------------------------------------------------------------- */

  /** `filepos_t`: a 1-based row and column in a named file. */
  datatype FilePos = FilePos(filepath: string, row: nat, col: nat)

  /** `filepos_create`. */
  function CreatePos(filepath: string): (p: FilePos)
    ensures p.filepath == filepath && p.row == 1 && p.col == 1
  {
    FilePos(filepath, 1, 1)
  }

  /** `filepos_advance`: a newline starts the next row, any other character
      moves one column right; a NULL position stays NULL. */
  function Advance(pos: Option<FilePos>, c: char): (r: Option<FilePos>)
    ensures pos.None? <==> r.None?
    ensures pos.Some? ==> r.value.filepath == pos.value.filepath
    ensures pos.Some? && c == '\n' ==> r.value.row == pos.value.row + 1 && r.value.col == 1
    ensures pos.Some? && c != '\n' ==> r.value.row == pos.value.row && r.value.col == pos.value.col + 1
  {
    match pos
    case None => None
    case Some(p) => if c == '\n' then Some(p.(row := p.row + 1, col := 1)) else Some(p.(col := p.col + 1))
  }

  /** The position after reading all of `s`, one character at a time. */
  function AdvanceAll(pos: FilePos, s: string): FilePos
  {
    if |s| == 0 then pos else Advance(Some(AdvanceAll(pos, s[..|s| - 1])), s[|s| - 1]).value
  }

  /** Number of newlines in `s`. */
  function Newlines(s: string): nat
  {
    if |s| == 0 then 0 else Newlines(s[..|s| - 1]) + (if s[|s| - 1] == '\n' then 1 else 0)
  }

  /** After reading `s` the row has grown by its newlines, and without a
      newline the column has grown by `|s|`. */
  lemma {:induction false} AdvanceAllPosition(pos: FilePos, s: string)
    ensures AdvanceAll(pos, s).filepath == pos.filepath
    ensures AdvanceAll(pos, s).row == pos.row + Newlines(s)
    ensures '\n' !in s ==> AdvanceAll(pos, s).col == pos.col + |s|
  {
    if |s| > 0 {
      var pre := s[..|s| - 1];
      assert '\n' !in s ==> '\n' !in pre by {
        if '\n' in pre {
          var k :| 0 <= k < |pre| && pre[k] == '\n';
          assert s[k] == '\n';
        }
      }
      AdvanceAllPosition(pos, pre);
    }
  }

  /** After the last newline of the input the column counts the characters
      read since, starting from 1. */
  lemma {:induction false} AdvanceAfterNewline(pos: FilePos, a: string, b: string)
    requires '\n' !in b
    ensures AdvanceAll(pos, a + ['\n'] + b).col == 1 + |b|
    decreases |b|
  {
    var s := a + ['\n'] + b;
    if |b| == 0 {
      assert s[..|s| - 1] == a;
    } else {
      var b' := b[..|b| - 1];
      assert s[..|s| - 1] == a + ['\n'] + b';
      assert s[|s| - 1] == b[|b| - 1];
      assert '\n' !in b';
      AdvanceAfterNewline(pos, a, b');
    }
  }

  /* ---------------------------------------------------------------- */
  /* Tokenizer                                                        */
  /* ---------------------------------------------------------------- */

  const Escape: char := '\\'
  const Quote1: char := '\''
  const Quote2: char := '"'

  /** The `mode` variable of `cli_read_configfile_arg`. */
  datatype Mode = Plain | Escaped | Quoted(q: char)

  /** What reading one argument gives: none left, an argument and the rest
      of the input, or error 2 (ended in escape mode) or 3 (ended inside a
      quoted section). */
  datatype ReadResult = NoArg | Arg(value: string, rest: string) | ReadError(code: nat)

  /** The character loop of `cli_read_configfile_arg`, with `acc` the
      characters kept so far. */
  function Scan(s: string, mode: Mode, acc: string): (r: ReadResult)
    ensures r.ReadError? ==> r.code in {2, 3}
    ensures !r.NoArg?
    ensures r.Arg? ==> |r.rest| <= |s| && (|s| > 0 ==> |r.rest| < |s|)
    decreases |s|
  {
    if |s| == 0 then
      match mode
      case Escaped => ReadError(2)
      case Quoted(_) => ReadError(3)
      case Plain => Arg(acc, [])
    else
      var c := s[0];
      match mode
      case Escaped => Scan(s[1..], Plain, acc + [c])
      case Quoted(q) => if c == q then Scan(s[1..], Plain, acc) else Scan(s[1..], mode, acc + [c])
      case Plain =>
        if c == Quote1 || c == Quote2 then Scan(s[1..], Quoted(c), acc)
        else if c == Escape then Scan(s[1..], Escaped, acc)
        else if Strings.IsWhitespace(c) then Arg(acc, s[1..])
        else Scan(s[1..], Plain, acc + [c])
  }

  /** `cli_read_configfile_arg`: skips whitespace, then reads one argument. */
  function ReadArg(s: string): (r: ReadResult)
    ensures r.NoArg? <==> forall k | 0 <= k < |s| :: Strings.IsWhitespace(s[k])
    ensures r.Arg? ==> |r.rest| < |s|
    ensures r.ReadError? ==> r.code in {2, 3}
  {
    var j := Numbers.SkipSpace(s, 0);
    if j == |s| then NoArg else Scan(s[j..], Plain, [])
  }

  /** The reading loop of `cli_read_configfile`: every argument up to the
      end of the input, or the first error. */
  function ReadAll(s: string): (r: Result<seq<string>, nat>)
    ensures r.Failure? ==> r.error in {2, 3}
    decreases |s|
  {
    match ReadArg(s)
    case NoArg => Success([])
    case ReadError(e) => Failure(e)
    case Arg(v, rest) =>
      match ReadAll(rest)
      case Failure(e) => Failure(e)
      case Success(vs) => Success([v] + vs)
  }

  /** `cli_read_configfile` without the file: the file path as `argv[0]`,
      then the arguments of the content. */
  function ConfigArgs(filepath: string, content: string): (r: Result<seq<string>, nat>)
    ensures r.Success? <==> ReadAll(content).Success?
    ensures r.Success? ==> |r.value| >= 1 && r.value[0] == filepath && r.value[1..] == ReadAll(content).value
    ensures r.Failure? ==> r.error == ReadAll(content).error
  {
    match ReadAll(content)
    case Failure(e) => Failure(e)
    case Success(vs) => Success([filepath] + vs)
  }

  /** Every character preceded by a backslash. */
  function EscapeAll(a: string): (e: string)
    ensures |e| == 2 * |a|
  {
    if |a| == 0 then [] else [Escape, a[0]] + EscapeAll(a[1..])
  }

  /** Outside quotes a backslash is dropped and the character after it is
      kept, whatever it is. */
  lemma {:induction false} ScanEscaped(a: string, t: string, acc: string)
    ensures Scan(EscapeAll(a) + t, Plain, acc) == Scan(t, Plain, acc + a)
    decreases |a|
  {
    if |a| > 0 {
      var s := EscapeAll(a) + t;
      assert s == [Escape, a[0]] + (EscapeAll(a[1..]) + t);
      assert s[1..] == [a[0]] + (EscapeAll(a[1..]) + t);
      assert s[1..][1..] == EscapeAll(a[1..]) + t;
      var s2 := EscapeAll(a[1..]) + t;
      assert s[1..] == [a[0]] + s2;
      assert Scan(s, Plain, acc) == Scan(s[1..], Escaped, acc);
      assert Scan(s[1..], Escaped, acc) == Scan(s2, Plain, acc + [a[0]]);
      ScanEscaped(a[1..], t, acc + [a[0]]);
      assert acc + [a[0]] + a[1..] == acc + a;
    } else {
      assert EscapeAll(a) + t == t && acc + a == acc;
    }
  }

  /** Inside a quoted section every character up to the matching quote is
      kept: whitespace, backslashes and the other quote character too. */
  lemma {:induction false} ScanQuoted(q: char, a: string, t: string, acc: string)
    requires q !in a
    ensures Scan(a + [q] + t, Quoted(q), acc) == Scan(t, Plain, acc + a)
    decreases |a|
  {
    var s := a + [q] + t;
    if |a| == 0 {
      assert s == [q] + t;
      assert s[1..] == t;
      assert acc + a == acc;
    } else {
      assert s[0] == a[0] && a[0] != q;
      assert s[1..] == a[1..] + [q] + t;
      ScanQuoted(q, a[1..], t, acc + [a[0]]);
      assert acc + [a[0]] + a[1..] == acc + a;
    }
  }

  /** A quoted section drops its quote marks and keeps its content. */
  lemma QuotedSection(q: char, a: string, t: string, acc: string)
    requires q == Quote1 || q == Quote2
    requires q !in a
    ensures Scan([q] + a + [q] + t, Plain, acc) == Scan(t, Plain, acc + a)
  {
    var s := [q] + a + [q] + t;
    assert s[1..] == a + [q] + t;
    ScanQuoted(q, a, t, acc);
  }

  /** Input that ends while escaping is error 2; input that ends inside a
      quoted section is error 3. */
  lemma ScanErrors(q: char, a: string, b: string, acc: string)
    requires q == Quote1 || q == Quote2
    requires q !in b
    ensures Scan(EscapeAll(a) + [Escape], Plain, acc) == ReadError(2)
    ensures Scan([q] + b, Plain, acc) == ReadError(3)
  {
    ScanEscaped(a, [Escape], acc);
    assert [Escape][1..] == [];
    OpenQuote(q, b, acc);
  }

  lemma {:induction false} OpenQuote(q: char, b: string, acc: string)
    requires q == Quote1 || q == Quote2
    requires q !in b
    ensures Scan([q] + b, Plain, acc) == ReadError(3)
  {
    assert ([q] + b)[1..] == b;
    OpenQuoteFrom(q, b, acc);
  }

  lemma {:induction false} OpenQuoteFrom(q: char, b: string, acc: string)
    requires q !in b
    ensures Scan(b, Quoted(q), acc) == ReadError(3)
    decreases |b|
  {
    if |b| > 0 {
      assert b[0] != q;
      assert q !in b[1..] by {
        forall k | 0 <= k < |b[1..]| ensures b[1..][k] != q {
          assert b[1..][k] == b[k + 1];
        }
      }
      OpenQuoteFrom(q, b[1..], acc + [b[0]]);
    }
  }

  /** How an argument is written so that the tokenizer reads it back:
      every character escaped, and the empty argument as an empty quoted
      section. */
  function Encode(a: string): (e: string)
    ensures |e| > 0 && (e[0] == Escape || e[0] == Quote1)
  {
    if |a| == 0 then [Quote1, Quote1] else EscapeAll(a)
  }

  /** The arguments written one after another, each followed by a space. */
  function Line(args: seq<string>): string
  {
    if |args| == 0 then [] else Encode(args[0]) + [' '] + Line(args[1..])
  }

  /** The argument an encoding starts with is read back, and reading stops
      just after the space behind it. */
  lemma ReadEncoded(a: string, t: string)
    ensures ReadArg(Encode(a) + [' '] + t) == Arg(a, t)
  {
    var s := Encode(a) + [' '] + t;
    assert s[0] == Encode(a)[0];
    assert Numbers.SkipSpace(s, 0) == 0;
    assert s[0..] == s;
    ScanEncoded(a, t);
  }

  /** A space outside quotes ends the argument. */
  lemma ScanSpace(t: string, acc: string)
    ensures Scan([' '] + t, Plain, acc) == Arg(acc, t)
  {
    assert ([' '] + t)[1..] == t;
  }

  /** The scan of an encoded argument followed by a space. */
  lemma ScanEncoded(a: string, t: string)
    ensures Scan(Encode(a) + [' '] + t, Plain, []) == Arg(a, t)
  {
    var u := [' '] + t;
    if |a| == 0 {
      assert Encode(a) + [' '] + t == [Quote1] + a + [Quote1] + u;
      QuotedSection(Quote1, a, u, []);
      ScanSpace(t, a);
    } else {
      assert Encode(a) + [' '] + t == EscapeAll(a) + u;
      ScanEscaped(a, u, []);
      assert [] + a == a;
      ScanSpace(t, a);
    }
  }

  /** Round trip: the tokenizer reads a line of encoded arguments back as
      exactly those arguments. */
  lemma {:induction false} ReadAllLine(args: seq<string>)
    ensures ReadAll(Line(args)) == Success(args)
    decreases |args|
  {
    if |args| > 0 {
      ReadEncoded(args[0], Line(args[1..]));
      ReadAllLine(args[1..]);
      assert [args[0]] + args[1..] == args;
    }
  }

  /** Reading stops at the first argument the tokenizer rejects: after any
      number of well-formed arguments, its error is the error of the read. */
  lemma {:induction false} ReadAllLineThenError(args: seq<string>, t: string)
    requires ReadArg(t).ReadError?
    ensures ReadAll(Line(args) + t) == Failure(ReadArg(t).code)
    decreases |args|
  {
    if |args| == 0 {
      assert Line(args) + t == t;
    } else {
      var u := Line(args[1..]) + t;
      LineThen(args, t);
      ReadEncoded(args[0], u);
      ReadAllLineThenError(args[1..], t);
      ReadAllAfterArg(Line(args) + t, args[0], u);
    }
  }

  /** A line followed by more text starts with its first encoded argument. */
  lemma LineThen(args: seq<string>, t: string)
    requires |args| > 0
    ensures Line(args) + t == Encode(args[0]) + [' '] + (Line(args[1..]) + t)
  {
    assert Line(args) == Encode(args[0]) + [' '] + Line(args[1..]);
  }

  /** One read argument in front of the rest leaves the read of the rest
      to decide the outcome. */
  lemma ReadAllAfterArg(s: string, v: string, rest: string)
    requires ReadArg(s) == Arg(v, rest)
    ensures ReadAll(rest).Failure? ==> ReadAll(s) == Failure(ReadAll(rest).error)
  {
  }

  /** A configuration file whose content breaks off in a bad argument is
      rejected with that argument's error, whatever came before it. */
  lemma ConfigArgsError(filepath: string, args: seq<string>, t: string)
    requires ReadArg(t).ReadError?
    ensures ConfigArgs(filepath, Line(args) + t) == Failure(ReadArg(t).code)
  {
    ReadAllLineThenError(args, t);
  }

  /** An unquoted word followed by whitespace is read without the
      whitespace, which is consumed. */
  lemma {:induction false} ReadWord(w: string, c: char, t: string)
    requires |w| > 0 && Strings.IsWhitespace(c)
    requires forall k | 0 <= k < |w| ::
               !Strings.IsWhitespace(w[k]) && w[k] != Escape && w[k] != Quote1 && w[k] != Quote2
    ensures ReadArg(w + [c] + t) == Arg(w, t)
  {
    var s := w + [c] + t;
    assert Numbers.SkipSpace(s, 0) == 0 by {
      assert s[0] == w[0];
    }
    assert s[0..] == s;
    ScanWord(w, c, t, []);
  }

  lemma {:induction false} ScanWord(w: string, c: char, t: string, acc: string)
    requires Strings.IsWhitespace(c)
    requires forall k | 0 <= k < |w| ::
               !Strings.IsWhitespace(w[k]) && w[k] != Escape && w[k] != Quote1 && w[k] != Quote2
    ensures Scan(w + [c] + t, Plain, acc) == Arg(acc + w, t)
    decreases |w|
  {
    var s := w + [c] + t;
    if |w| == 0 {
      assert s == [c] + t;
      assert s[1..] == t;
    } else {
      assert s[0] == w[0];
      assert s[1..] == w[1..] + [c] + t;
      ScanWord(w[1..], c, t, acc + [w[0]]);
      assert acc + [w[0]] + w[1..] == acc + w;
    }
  }

  /* ---------------------------------------------------------------- */
  /* Arguments                                                        */
  /* ---------------------------------------------------------------- */

  /** `cli_args_flag_t`: which settings the user gave. */
  datatype Flag =
    | HelpFlag | ConfigFileFlag | WidthFlag | HeightFlag | DieSidesFlag | ExactEndingFlag
    | DistributionFlag | IterationsFlag | DiceLimitFlag | BarLengthFlag | SalsFlag

  /** `cli_args_t`; the bit set `setargsflags` is a set of flags. */
  datatype Args = Args(
    flags: set<Flag>,
    configfile: Option<string>,
    width: nat,
    height: nat,
    dieSides: nat,
    exactEnding: bool,
    distribution: Distributions.Distribution,
    iterations: nat,
    dicelimit: nat,
    barlength: nat,
    sals: seq<SnakesAndLadders.Sol>)

  /** The initial arguments of `cli_parse_args`: the defaults of
      include/cli.h for the fields it sets, 0 for the others. */
  const InitialArgs: Args :=
    Args({}, None, 10, 10, 6, false, Distributions.Distribution(Distributions.Uniform, []), 0, 0, 0, [])

  /** The errors `cli_parse_opt_uint64` reports before exiting. */
  datatype OptError = NoString | OutOfRange | NotANumber | BelowMin(value: nat) | AboveMax(value: nat)

  /** `cli_parse_opt_uint64`: the option's value, accepted iff it is a
      64-bit number in `[valmin, valmax]`. */
  function ParseOptUint64(optarg: Option<string>, valmin: nat, valmax: nat): (r: Result<nat, OptError>)
    ensures r.Success? <==>
              Numbers.ParseUint64(optarg).Success? && valmin <= Numbers.ParseUint64(optarg).value <= valmax
    ensures r.Success? ==> r.value == Numbers.ParseUint64(optarg).value
    ensures optarg.None? ==> r == Failure(NoString)
    ensures r.Failure? && r.error.BelowMin? ==> r.error.value < valmin
    ensures r.Failure? && r.error.AboveMax? ==> r.error.value > valmax
    ensures Numbers.ParseUint64(optarg) == Failure(2) ==> r == Failure(OutOfRange)
    ensures Numbers.ParseUint64(optarg).Failure? && Numbers.ParseUint64(optarg).error in {3, 4} ==>
              r == Failure(NotANumber)
    ensures Numbers.ParseUint64(optarg).Success? && Numbers.ParseUint64(optarg).value < valmin ==>
              r == Failure(BelowMin(Numbers.ParseUint64(optarg).value))
    ensures Numbers.ParseUint64(optarg).Success? && valmin <= Numbers.ParseUint64(optarg).value &&
            Numbers.ParseUint64(optarg).value > valmax ==>
              r == Failure(AboveMax(Numbers.ParseUint64(optarg).value))
  {
    match Numbers.ParseUint64(optarg)
    case Failure(e) =>
      if e == 1 then Failure(NoString) else if e == 2 then Failure(OutOfRange) else Failure(NotANumber)
    case Success(v) =>
      if v < valmin then Failure(BelowMin(v))
      else if v > valmax then Failure(AboveMax(v))
      else Success(v)
  }

  /** The weight-sum check of `cli_parse_args`: the loop stops at the first
      non-zero weight. */
  method WeightSumIsZero(ws: seq<nat>) returns (iszero: bool)
    ensures iszero <==> Sum(ws) == 0
  {
    iszero := true;
    var i := 0;
    while iszero && i < |ws|
      invariant 0 <= i <= |ws|
      invariant iszero <==> forall k | 0 <= k < i :: ws[k] == 0
      invariant !iszero ==> exists k | 0 <= k < i :: ws[k] != 0
    {
      if ws[i] != 0 {
        iszero := false;
      }
      i := i + 1;
    }
    SumZeroIffAllZero(ws);
  }

  /** Why `cli_parse_args` rejects the distribution: an error code of
      `distr_build`, or a weight sum of 0. */
  datatype DistrError = BuildError(code: nat) | ZeroWeightSum

  /** The distribution step of `cli_parse_args` for the command line (a
      configuration file's distribution is left unbuilt): build it for the
      die's sides, then reject weights that are all 0. */
  function BuildDistribution(args: Args): (r: Result<Args, DistrError>)
    ensures r.Success? ==>
              && Distributions.Build(Some(args.distribution), args.dieSides) == Success(r.value.distribution)
              && Sum(r.value.distribution.weights) > 0
              && r.value == args.(distribution := r.value.distribution)
    ensures r == Failure(ZeroWeightSum) <==>
              Distributions.Build(Some(args.distribution), args.dieSides).Success? &&
              Sum(Distributions.Build(Some(args.distribution), args.dieSides).value.weights) == 0
    ensures Distributions.Build(Some(args.distribution), args.dieSides).Failure? ==>
              r == Failure(BuildError(Distributions.Build(Some(args.distribution), args.dieSides).error))
  {
    match Distributions.Build(Some(args.distribution), args.dieSides)
    case Failure(e) => Failure(BuildError(e))
    case Success(d) => if Sum(d.weights) == 0 then Failure(ZeroWeightSum) else Success(args.(distribution := d))
  }

  /** The transfer of configuration-file settings in `cli_parse_opts`:
      only the settings flagged in the configuration override; its
      shortcuts replace an empty list and are appended to any other. */
  function Merge(outer: Args, config: Args): (r: Args)
    ensures r.flags == outer.flags && r.configfile == outer.configfile
    ensures r.iterations == outer.iterations && r.dicelimit == outer.dicelimit && r.barlength == outer.barlength
    ensures r.width == if WidthFlag in config.flags then config.width else outer.width
    ensures r.height == if HeightFlag in config.flags then config.height else outer.height
    ensures r.dieSides == if DieSidesFlag in config.flags then config.dieSides else outer.dieSides
    ensures r.exactEnding == if ExactEndingFlag in config.flags then config.exactEnding else outer.exactEnding
    ensures r.distribution == if DistributionFlag in config.flags then config.distribution else outer.distribution
    ensures SalsFlag !in config.flags ==> r.sals == outer.sals
  {
    var r := outer.(
      width := if WidthFlag in config.flags then config.width else outer.width,
      height := if HeightFlag in config.flags then config.height else outer.height,
      dieSides := if DieSidesFlag in config.flags then config.dieSides else outer.dieSides,
      exactEnding := if ExactEndingFlag in config.flags then config.exactEnding else outer.exactEnding,
      distribution := if DistributionFlag in config.flags then config.distribution else outer.distribution);
    if SalsFlag !in config.flags then r
    else if |outer.sals| == 0 then r.(sals := config.sals)
    else r.(sals := MergeSals(outer.sals, config.sals, 0))
  }

  /** The appending loop of the merge, from the `i`-th configuration shortcut on. */
  function MergeSals(acc: seq<SnakesAndLadders.Sol>, sals: seq<SnakesAndLadders.Sol>, i: nat): (r: seq<SnakesAndLadders.Sol>)
    requires i <= |sals|
    ensures r == acc + sals[i..]
    decreases |sals| - i
  {
    if i == |sals| then acc else MergeSals(acc + [sals[i]], sals, i + 1)
  }

  /** Both branches of the shortcut transfer give the outer shortcuts
      followed by the configuration's, and a configuration without flags
      changes nothing. */
  lemma MergeSalsAppend(outer: Args, config: Args)
    ensures SalsFlag in config.flags ==> Merge(outer, config).sals == outer.sals + config.sals
    ensures config.flags == {} ==> Merge(outer, config) == outer
  {
    if SalsFlag in config.flags && |outer.sals| == 0 {
      assert outer.sals + config.sals == config.sals;
    }
  }

  /** The `strtosol` error code of one argument (0 when it parses). */
  function SolError(str: Option<string>): nat
  {
    SnakesAndLadders.StrToSol(str).1
  }

  /** `cli_read_sals`: every argument is a shortcut `a-b`, appended in
      order; the first that does not parse stops with its `strtosol` code. */
  function ReadSals(args: Args, argv: seq<Option<string>>): (r: Result<Args, nat>)
    ensures r.Success? <==> forall i | 0 <= i < |argv| :: SolError(argv[i]) == 0
    ensures r.Failure? ==>
              exists i | 0 <= i < |argv| :: SolError(argv[i]) == r.error != 0 && forall j | 0 <= j < i :: SolError(argv[j]) == 0
    ensures r.Success? ==>
              && r.value.flags == (if |argv| != 0 then args.flags + {SalsFlag} else args.flags)
              && |r.value.sals| == |args.sals| + |argv|
              && r.value.sals[..|args.sals|] == args.sals
              && (forall i | 0 <= i < |argv| :: SnakesAndLadders.StrToSol(argv[i]).0 == r.value.sals[|args.sals| + i])
              && r.value == args.(flags := r.value.flags, sals := r.value.sals)
  {
    var flagged := if |argv| != 0 then args.(flags := args.flags + {SalsFlag}) else args;
    match ParseSals(argv)
    case Failure(e) => Failure(e)
    case Success(ss) => Success(flagged.(sals := args.sals + ss))
  }

  /** Every argument parses as a shortcut. */
  predicate AllParse(argv: seq<Option<string>>)
  {
    forall k | 0 <= k < |argv| :: SolError(argv[k]) == 0
  }

  /** `e` is the non-zero code of the first argument that does not parse. */
  predicate FailsWith(argv: seq<Option<string>>, e: nat)
  {
    e != 0 && exists k | 0 <= k < |argv| :: SolError(argv[k]) == e && forall j | 0 <= j < k :: SolError(argv[j]) == 0
  }

  /** `ss` are the shortcuts of `argv`, in order. */
  predicate Parsed(argv: seq<Option<string>>, ss: seq<SnakesAndLadders.Sol>)
  {
    |ss| == |argv| && forall k | 0 <= k < |argv| :: SnakesAndLadders.StrToSol(argv[k]).0 == ss[k]
  }

  lemma ParseStep(argv: seq<Option<string>>, e: nat)
    requires |argv| > 0 && SolError(argv[0]) == 0
    ensures AllParse(argv) <==> AllParse(argv[1..])
    ensures FailsWith(argv[1..], e) ==> FailsWith(argv, e)
  {
    assert forall k | 1 <= k < |argv| :: argv[1..][k - 1] == argv[k];
    if FailsWith(argv[1..], e) {
      var k :| 0 <= k < |argv[1..]| && SolError(argv[1..][k]) == e && forall j | 0 <= j < k :: SolError(argv[1..][j]) == 0;
      assert SolError(argv[k + 1]) == e;
      assert forall j | 0 <= j < k + 1 :: SolError(argv[j]) == 0;
    }
  }

  lemma ParsedStep(argv: seq<Option<string>>, rest: seq<SnakesAndLadders.Sol>)
    requires |argv| > 0 && Parsed(argv[1..], rest)
    ensures Parsed(argv, [SnakesAndLadders.StrToSol(argv[0]).0] + rest)
  {
    var r := [SnakesAndLadders.StrToSol(argv[0]).0] + rest;
    forall k | 0 <= k < |argv| ensures SnakesAndLadders.StrToSol(argv[k]).0 == r[k] {
      if k > 0 {
        assert argv[1..][k - 1] == argv[k] && r[k] == rest[k - 1];
      }
    }
  }

  /** The shortcuts of `argv`, or the code of the first one that does not parse. */
  function ParseSals(argv: seq<Option<string>>): (r: Result<seq<SnakesAndLadders.Sol>, nat>)
    ensures r.Success? <==> AllParse(argv)
    ensures r.Failure? ==> FailsWith(argv, r.error)
    ensures r.Success? ==> Parsed(argv, r.value)
  {
    if |argv| == 0 then Success([])
    else
      var e := SolError(argv[0]);
      if e != 0 then Failure(e)
      else
        var rest := ParseSals(argv[1..]);
        ParseStep(argv, if rest.Failure? then rest.error else 0);
        if rest.Failure? then rest
        else
          ParsedStep(argv, rest.value);
          Success([SnakesAndLadders.StrToSol(argv[0]).0] + rest.value)
  }
}

=== FILE: common.dfy ===
/** Shared vocabulary of the model: optional values for the source's NULL
    pointers, results for its error codes, the 64-bit range of `size_t`,
    and sums over sequences of counters. */
module Common {

  /** The largest value of a 64-bit `size_t` (`ULONG_MAX`). */
  const U64_MAX: nat := 0xFFFF_FFFF_FFFF_FFFF

  /** The modulus of 64-bit unsigned arithmetic. */
  const U64_MOD: nat := 0x1_0000_0000_0000_0000

  /** A pointer that may be NULL. */
  datatype Option<+T> = None | Some(value: T)

  /** A value or a numbered error code. */
  datatype Result<+T, +E> = Success(value: T) | Failure(error: E)

  /** Sum of a sequence of counters, folded from the left. */
  function Sum(s: seq<nat>): nat
  {
    if |s| == 0 then 0 else Sum(s[..|s| - 1]) + s[|s| - 1]
  }

  /** Sum of a sequence of reals, folded from the left. */
  function SumR(s: seq<real>): real
  {
    if |s| == 0 then 0.0 else SumR(s[..|s| - 1]) + s[|s| - 1]
  }

  /** A sequence of `n` zeros. */
  function Zeros(n: nat): (z: seq<nat>)
    ensures |z| == n
    ensures forall i | 0 <= i < n :: z[i] == 0
  {
    seq(n, i => 0)
  }

  lemma SumAppend(s: seq<nat>, x: nat)
    ensures Sum(s + [x]) == Sum(s) + x
  {
    assert (s + [x])[..|s|] == s;
  }

  lemma {:induction false} SumConcat(a: seq<nat>, b: seq<nat>)
    ensures Sum(a + b) == Sum(a) + Sum(b)
    decreases |b|
  {
    if |b| == 0 {
      assert a + b == a;
    } else {
      var b' := b[..|b| - 1];
      assert a + b == (a + b') + [b[|b| - 1]];
      SumAppend(a + b', b[|b| - 1]);
      SumConcat(a, b');
      SumAppend(b', b[|b| - 1]);
      assert b' + [b[|b| - 1]] == b;
    }
  }

  lemma SumCons(x: nat, s: seq<nat>)
    ensures Sum([x] + s) == x + Sum(s)
  {
    SumConcat([x], s);
    assert [x][..0] == [];
  }

  /** A sequence sums to zero exactly when every element is zero. */
  lemma {:induction false} SumZeroIffAllZero(s: seq<nat>)
    ensures Sum(s) == 0 <==> forall i | 0 <= i < |s| :: s[i] == 0
  {
    if |s| > 0 {
      var s' := s[..|s| - 1];
      SumZeroIffAllZero(s');
      assert forall i | 0 <= i < |s'| :: s'[i] == s[i];
    }
  }

  lemma {:induction false} SumZeros(n: nat)
    ensures Sum(Zeros(n)) == 0
  {
    SumZeroIffAllZero(Zeros(n));
  }

  /** Adding one to a single counter adds one to the sum. */
  lemma SumIncrement(s: seq<nat>, i: nat)
    requires i < |s|
    ensures Sum(s[i := s[i] + 1]) == Sum(s) + 1
  {
    var t := s[i := s[i] + 1];
    assert s == s[..i] + [s[i]] + s[i + 1..];
    assert t == s[..i] + [s[i] + 1] + s[i + 1..];
    SumConcat(s[..i] + [s[i]], s[i + 1..]);
    SumConcat(s[..i] + [s[i] + 1], s[i + 1..]);
    SumAppend(s[..i], s[i]);
    SumAppend(s[..i], s[i] + 1);
  }
}

=== FILE: die.dfy ===
/** Dice (src/die.c): a die holds one probability per side, derived from the
    weights of a distribution, and a roll maps a random number in [0, 1) to
    the first side whose cumulative probability exceeds it. Probabilities are
    exact reals here, not doubles. */
module Dice {
  import opened Common
  import Distributions

  /** `die_t`: the probability of every side, side 1 first. */
  datatype Die = Die(sides: seq<real>)

  /** `die_create_empty`. */
  const Empty: Die := Die([])

  /** Each weight divided by `total`. A zero total (a NaN quotient in the
      source, for which every comparison fails) gives probability 0, which
      leaves every roll unchanged. */
  function Scale(ws: seq<nat>, total: nat): (ps: seq<real>)
    ensures |ps| == |ws|
  {
    seq(|ws|, i requires 0 <= i < |ws| => if total == 0 then 0.0 else ws[i] as real / total as real)
  }

  /** Every probability is non-negative. */
  predicate NonNegative(ps: seq<real>)
  {
    forall i | 0 <= i < |ps| :: 0.0 <= ps[i]
  }

  /** Scaled weights are non-negative, and each, times a positive total,
      gives its weight back. */
  lemma ScaleValues(ws: seq<nat>, total: nat)
    ensures NonNegative(Scale(ws, total))
    ensures total > 0 ==> forall i | 0 <= i < |ws| :: Scale(ws, total)[i] * total as real == ws[i] as real
  {
    var ps := Scale(ws, total);
    forall i | 0 <= i < |ws| ensures 0.0 <= ps[i] && (total > 0 ==> ps[i] * total as real == ws[i] as real) {
      if total > 0 {
        var w := ws[i] as real;
        var t := total as real;
        assert ps[i] == w / t;
        assert w / t * t == w;
      }
    }
  }

  /** `die_create`: the probability of a side is its weight over the sum of
      all weights. A NULL distribution gives the empty die. */
  function Create(distr: Option<Distributions.Distribution>): (d: Die)
    ensures distr.None? ==> d == Empty
    ensures distr.Some? ==> |d.sides| == |distr.value.weights|
    ensures NonNegative(d.sides)
    ensures distr.Some? && Sum(distr.value.weights) > 0 ==>
              && SumR(d.sides) == 1.0
              && forall i | 0 <= i < |d.sides| ::
                   d.sides[i] * Sum(distr.value.weights) as real == distr.value.weights[i] as real
    ensures distr.Some? && Sum(distr.value.weights) == 0 ==> SumR(d.sides) == 0.0
  {
    match distr
    case None => Empty
    case Some(dist) =>
      var total := Sum(dist.weights);
      SumRScale(dist.weights, total);
      ScaleValues(dist.weights, total);
      if total > 0 then
        ScaleSumsToOne(dist.weights);
        Die(Scale(dist.weights, total))
      else
        Die(Scale(dist.weights, total))
  }

  lemma {:induction false} SumRScale(ws: seq<nat>, total: nat)
    ensures total > 0 ==> SumR(Scale(ws, total)) == Sum(ws) as real / total as real
    ensures total == 0 ==> SumR(Scale(ws, total)) == 0.0
  {
    if |ws| > 0 {
      var n := |ws| - 1;
      assert Scale(ws, total)[..n] == Scale(ws[..n], total);
      SumRScale(ws[..n], total);
      if total > 0 {
        var a := Sum(ws[..n]) as real;
        var w := ws[n] as real;
        var t := total as real;
        DivAdd(a, w, t);
      }
    }
  }

  /** Two quotients by the same positive divisor add up to the quotient of the sum. */
  lemma DivAdd(a: real, w: real, t: real)
    requires t > 0.0
    ensures a / t + w / t == (a + w) / t
  {
  }

  /** Weights scaled by their own positive sum add up to 1. */
  lemma ScaleSumsToOne(ws: seq<nat>)
    requires Sum(ws) > 0
    ensures SumR(Scale(ws, Sum(ws))) == 1.0
  {
    SumRScale(ws, Sum(ws));
    var t := Sum(ws) as real;
    assert t / t == 1.0;
  }

  /** `die_isempty`: a die without sides. A NULL die counts as not empty,
      although include/die.h:34 documents the opposite. */
  function IsEmpty(die: Option<Die>): (b: bool)
    ensures b ==> die.Some?
  {
    die.Some? && |die.value.sides| == 0
  }

  /** A die built from a distribution is empty exactly when the distribution
      has no weights; a NULL distribution gives an empty die. */
  lemma CreateIsEmpty(distr: Option<Distributions.Distribution>)
    ensures IsEmpty(Some(Create(distr))) <==> distr.None? || |distr.value.weights| == 0
    ensures !IsEmpty(None)
  {
  }

  /** The probability that a roll lands on one of the first `k` sides. */
  function Prefix(ps: seq<real>, k: nat): real
    requires k <= |ps|
  {
    SumR(ps[..k])
  }

  lemma PrefixStep(ps: seq<real>, k: nat)
    requires k < |ps|
    ensures Prefix(ps, k + 1) == Prefix(ps, k) + ps[k]
  {
    assert ps[..k + 1][..k] == ps[..k];
  }

  lemma {:induction false} PrefixMonotone(ps: seq<real>, j: nat, k: nat)
    requires NonNegative(ps) && j <= k <= |ps|
    ensures Prefix(ps, j) <= Prefix(ps, k)
    decreases k - j
  {
    if j < k {
      PrefixStep(ps, j);
      PrefixMonotone(ps, j + 1, k);
    }
  }

  /** The loop of `dice` from `side` on, with `offset` the cumulative
      probability of the sides before it: the first side whose cumulative
      probability exceeds `r`, or the side count when there is none. */
  function RollFrom(ps: seq<real>, r: real, side: nat, offset: real): (s: nat)
    requires side <= |ps| && offset == Prefix(ps, side)
    ensures side <= s <= |ps|
    ensures side < |ps| ==> side < s
    ensures forall k | side < k < s :: Prefix(ps, k) <= r
    ensures s < |ps| ==> r < Prefix(ps, s)
    decreases |ps| - side
  {
    if side == |ps| then side
    else
      var next := offset + ps[side];
      PrefixStep(ps, side);
      if r < next then side + 1 else RollFrom(ps, r, side + 1, next)
  }

  /** `dice` with the random number `r` drawn from [0, 1) given as a parameter. */
  function Roll(die: Die, r: real): (s: nat)
    ensures |die.sides| > 0 ==> 1 <= s <= |die.sides|
    ensures |die.sides| == 0 ==> s == 0
    ensures forall k | 0 < k < s :: Prefix(die.sides, k) <= r
    ensures s < |die.sides| ==> r < Prefix(die.sides, s)
  {
    RollFrom(die.sides, r, 0, 0.0)
  }

  /** A roll of a die built from weights with a positive sum lands on side
      `k` exactly when `r` falls in `[Prefix(k - 1), Prefix(k))`, an interval
      whose width is the weight of side `k` over the sum of all weights. */
  lemma RollInterval(distr: Distributions.Distribution, r: real, k: nat)
    requires Sum(distr.weights) > 0 && 0.0 <= r < 1.0
    requires 1 <= k <= |distr.weights|
    ensures var d := Create(Some(distr));
            Roll(d, r) == k <==> Prefix(d.sides, k - 1) <= r < Prefix(d.sides, k)
  {
    var d := Create(Some(distr));
    var ps := d.sides;
    var n := |ps|;
    var s := Roll(d, r);
    assert ps[..n] == ps;
    if s == k {
      if k > 1 {
        assert Prefix(ps, k - 1) <= r;
      }
    } else if Prefix(ps, k - 1) <= r < Prefix(ps, k) {
      if s < k {
        PrefixMonotone(ps, s, k - 1);
      }
    }
  }

  /** A side of weight zero is never rolled (while the weights do not all vanish). */
  lemma ZeroWeightNeverRolled(distr: Distributions.Distribution, r: real, k: nat)
    requires Sum(distr.weights) > 0 && 0.0 <= r < 1.0
    requires 1 <= k <= |distr.weights| && distr.weights[k - 1] == 0
    ensures Roll(Create(Some(distr)), r) != k
  {
    var d := Create(Some(distr));
    PrefixStep(d.sides, k - 1);
    RollInterval(distr, r, k);
  }

  /** With all weights zero every roll gives the side count, the side whose
      cumulative probability is never exceeded by a non-negative `r`. */
  lemma AllZeroRollsLast(distr: Distributions.Distribution, r: real)
    requires Sum(distr.weights) == 0 && 0.0 <= r
    ensures Roll(Create(Some(distr)), r) == |distr.weights|
  {
    var d := Create(Some(distr));
    var s := Roll(d, r);
    if s < |d.sides| {
      assert d.sides[..|d.sides|] == d.sides;
      PrefixMonotone(d.sides, s, |d.sides|);
    }
  }

  /** `weightsum` as the source accumulates it: a `size_t` to which every
      weight is added modulo 2^64, which leaves the exact sum modulo 2^64. */
  function WeightSum64(ws: seq<nat>): nat
  {
    Sum(ws) % U64_MOD
  }

  /** The quotient `w / (double)weightsum`: finite, infinite (a positive
      weight over a zero sum) or NaN (zero over zero). */
  datatype Quotient = Finite(x: real) | Infinity | NotANumber

  function Divide(w: nat, s: nat): Quotient
  {
    if s != 0 then Finite(w as real / s as real)
    else if w != 0 then Infinity
    else NotANumber
  }

  function AddQ(a: Quotient, b: Quotient): Quotient
  {
    if a.NotANumber? || b.NotANumber? then NotANumber
    else if a.Infinity? || b.Infinity? then Infinity
    else Finite(a.x + b.x)
  }

  function LessQ(r: real, q: Quotient): bool
  {
    q.Infinity? || (q.Finite? && r < q.x)
  }

  /** `dice` on the die `die_create` builds from `ws` when the weight sum is
      kept in 64 bits, from `side` on. */
  function RollAsWrittenFrom(ws: seq<nat>, r: real, side: nat, offset: Quotient): (s: nat)
    requires side <= |ws|
    ensures side <= s <= |ws|
    decreases |ws| - side
  {
    if side == |ws| then side
    else
      var next := AddQ(offset, Divide(ws[side], WeightSum64(ws)));
      if LessQ(r, next) then side + 1 else RollAsWrittenFrom(ws, r, side + 1, next)
  }

  function RollAsWritten(ws: seq<nat>, r: real): (s: nat)
    ensures s <= |ws|
  {
    RollAsWrittenFrom(ws, r, 0, Finite(0.0))
  }

  /** Weights `1, 2^64 - 1`: their 64-bit sum wraps to 0, side 1 gets an
      infinite probability and is rolled every time, although its weight is
      one part in 2^64. */
  lemma WrappedWeightSum(r: real)
    requires 0.0 <= r < 1.0
    ensures WeightSum64([1, U64_MAX]) == 0
    ensures RollAsWritten([1, U64_MAX], r) == 1
  {
    var ws: seq<nat> := [1, U64_MAX];
    assert ws[..1] == [1] && [1][..0] == [];
    assert Sum(ws) == U64_MOD;
  }

  /** With the exact sum, the same weights roll side 2 for every `r` except
      the lowest 2^-64 of the range. */
  lemma ExactWeightSum(r: real)
    requires 1.0 / U64_MOD as real <= r < 1.0
    ensures Roll(Create(Some(Distributions.Distribution(Distributions.PresetNone, [1, U64_MAX]))), r) == 2
  {
    var distr := Distributions.Distribution(Distributions.PresetNone, [1, U64_MAX]);
    var ws := distr.weights;
    assert ws[..1] == [1] && [1][..0] == [];
    assert Sum(ws) == U64_MOD;
    var d := Create(Some(distr));
    assert d.sides[0] == 1.0 / U64_MOD as real;
    PrefixStep(d.sides, 0);
    assert Prefix(d.sides, 1) == d.sides[0];
  }
}

=== FILE: distribution.dfy ===
/** Die weight distributions (src/distribution.c): a preset name or a
    comma-separated list of weights, built into one weight per die side. */
module Distributions {
  import opened Common
  import Strings
  import Numbers

  /** `distr_preset_t`, in the order of its enumerators (0 to 4). */
  datatype Preset = PresetNone | Uniform | TwoDice | Upstairs | Downstairs

  /** `distribution_t`: a preset and the weights built so far. */
  datatype Distribution = Distribution(preset: Preset, weights: seq<nat>)

  /** `distr_create_empty`. */
  const Empty: Distribution := Distribution(PresetNone, [])

  /** The enumerator with number `i`. */
  function PresetOf(i: nat): Preset
    requires i < 5
  {
    [PresetNone, Uniform, TwoDice, Upstairs, Downstairs][i]
  }

  /** `distr_preset_infos`: a table of five names of which only entries 1 and
      2 are initialised; the other three names are NULL. */
  const PresetNames: seq<Option<string>> := [None, Some("uniform"), Some("twodice"), None, None]

  /** Outcome of the preset-name search in `strtodistr`. */
  datatype Lookup = Found(index: nat) | NotFound | UndefinedCompare

  /** The search loop as written: entries 1 to 4 are compared with `strcmp`,
      which has no defined behaviour when handed a NULL name. */
  function LookupAsWritten(str: string, i: nat): (r: Lookup)
    requires 1 <= i <= |PresetNames|
    ensures i < |PresetNames| ==> !r.NotFound?
    ensures r.Found? ==> i <= r.index < |PresetNames| && PresetNames[r.index] == Some(str)
    ensures r.Found? <==> (i <= 1 && str == "uniform") || (i <= 2 && str == "twodice")
    decreases |PresetNames| - i
  {
    if i == |PresetNames| then NotFound
    else if PresetNames[i].None? then UndefinedCompare
    else if PresetNames[i].value == str then Found(i)
    else LookupAsWritten(str, i + 1)
  }

  /** Every string that names no preset drives the search into a NULL entry,
      so every weight list passes through undefined behaviour. */
  lemma LookupReachesNullName(str: string)
    requires str != "uniform" && str != "twodice"
    ensures LookupAsWritten(str, 1) == UndefinedCompare
  {
  }

  /** The search restricted to the entries that carry a name, which is what
      the table is evidently meant to provide. */
  function LookupPreset(str: string): (r: Option<Preset>)
    ensures r == Some(Uniform) <==> str == "uniform"
    ensures r == Some(TwoDice) <==> str == "twodice"
    ensures r.None? <==> str != "uniform" && str != "twodice"
  {
    if str == PresetNames[1].value then Some(PresetOf(1))
    else if str == PresetNames[2].value then Some(PresetOf(2))
    else None
  }

  /** The named entries are found alike by both searches. */
  lemma LookupAgreesOnNames(str: string)
    requires str == "uniform" || str == "twodice"
    ensures LookupAsWritten(str, 1).Found?
    ensures LookupPreset(str) == Some(PresetOf(LookupAsWritten(str, 1).index))
  {
  }

  /** Every token from position `i` on is a 64-bit number. */
  predicate TokensParse(ts: seq<string>, i: nat)
  {
    forall k | i <= k < |ts| :: Numbers.ParseUint64(Some(ts[k])).Success?
  }

  /** The weights parsed from the tokens `ts[i..]`, or the first token's error code. */
  function ParseWeights(ts: seq<string>, i: nat): (r: Result<seq<nat>, nat>)
    requires i <= |ts|
    ensures r.Success? ==> |r.value| == |ts| - i
    ensures r.Success? ==> forall k | i <= k < |ts| ::
              Numbers.ParseUint64(Some(ts[k])) == Success(r.value[k - i])
    ensures r.Success? <==> TokensParse(ts, i)
    ensures r.Failure? ==> r.error in {2, 3, 4}
    decreases |ts| - i
  {
    if i == |ts| then Success([])
    else match Numbers.ParseUint64(Some(ts[i]))
      case Failure(e) => Failure(e)
      case Success(w) =>
        match ParseWeights(ts, i + 1)
        case Failure(e) => Failure(e)
        case Success(ws) => Success([w] + ws)
  }

  /** `strtodistr`: a preset with no weights, or one weight per
      comma-separated token. A token error `e` is reported as `e + 1`. */
  function StrToDistr(str: Option<string>): (r: Result<Distribution, nat>)
    ensures str.None? <==> r == Failure(1)
    ensures str == Some("uniform") ==> r == Success(Distribution(Uniform, []))
    ensures str == Some("twodice") ==> r == Success(Distribution(TwoDice, []))
    ensures r.Failure? ==> r.error in {1, 3, 4, 5}
    ensures str.Some? && str.value != "uniform" && str.value != "twodice" ==>
              var ts := Strings.SplitAll(str.value, ',');
              && (r.Success? <==> TokensParse(ts, 0))
              && (r.Success? ==>
                    && r.value.preset == PresetNone
                    && |r.value.weights| == |ts|
                    && forall k | 0 <= k < |ts| :: Numbers.ParseUint64(Some(ts[k])) == Success(r.value.weights[k]))
  {
    match str
    case None => Failure(1)
    case Some(s) =>
      match LookupPreset(s)
      case Some(p) => Success(Distribution(p, []))
      case None =>
        var ts := Strings.SplitAll(s, ',');
        match ParseWeights(ts, 0)
        case Failure(e) => Failure(e + 1)
        case Success(ws) => Success(Distribution(PresetNone, ws))
  }

  /** The weights rendered as `W1,W2,...,Wn`. */
  function FormatWeights(ws: seq<nat>): string
    requires |ws| >= 1
  {
    Strings.Join(seq(|ws|, k requires 0 <= k < |ws| => Numbers.ToDecimal(ws[k])), ',')
  }

  /** Round trip: any non-empty list of 64-bit weights written as text is
      read back as exactly those weights. */
  lemma StrToDistrFormat(ws: seq<nat>)
    requires |ws| >= 1
    requires forall k | 0 <= k < |ws| :: ws[k] <= U64_MAX
    ensures StrToDistr(Some(FormatWeights(ws))) == Success(Distribution(PresetNone, ws))
  {
    var ts := seq(|ws|, k requires 0 <= k < |ws| => Numbers.ToDecimal(ws[k]));
    forall k | 0 <= k < |ts| ensures ',' !in ts[k] && Numbers.ParseUint64(Some(ts[k])) == Success(ws[k]) {
      Numbers.ToDecimalValue(ws[k]);
      Numbers.ParseToDecimal(ws[k]);
      forall j | 0 <= j < |ts[k]| ensures ts[k][j] != ',' {
        assert Numbers.IsDigit(ts[k][j]);
      }
    }
    Strings.SplitAllJoin(ts, ',');
    var s := FormatWeights(ws);
    assert s != "uniform" && s != "twodice" by {
      Numbers.ToDecimalValue(ws[0]);
      assert Numbers.IsDigit(ts[0][0]);
      JoinStartsWithFirst(ts, ',');
    }
    var r := StrToDistr(Some(s));
    assert r.value.weights == ws;
  }

  lemma {:induction false} JoinStartsWithFirst(ts: seq<string>, sep: char)
    requires |ts| >= 1 && |ts[0]| >= 1
    ensures Strings.Join(ts, sep)[0] == ts[0][0]
  {
  }

  /** Weights `0, 1, ..., n - 1`: the first loop of the two-dice builder. */
  function Ascending(n: nat): (ws: seq<nat>)
  {
    if n == 0 then [] else Ascending(n - 1) + [n - 1]
  }

  /** Weights `n, n - 1, ..., 1`: the second loop of the two-dice builder. */
  function Descending(n: nat): (ws: seq<nat>)
  {
    if n == 0 then [] else [n] + Descending(n - 1)
  }

  lemma {:induction false} AscendingValues(n: nat)
    ensures |Ascending(n)| == n
    ensures forall i | 0 <= i < n :: Ascending(n)[i] == i
  {
    if n > 0 {
      AscendingValues(n - 1);
    }
  }

  lemma {:induction false} DescendingValues(n: nat)
    ensures |Descending(n)| == n
    ensures forall i | 0 <= i < n :: Descending(n)[i] == n - i
  {
    if n > 0 {
      DescendingValues(n - 1);
    }
  }

  /** Weights `1, 1, ..., 1`: the loop of the uniform builder. */
  function Ones(n: nat): (ws: seq<nat>)
  {
    if n == 0 then [] else Ones(n - 1) + [1]
  }

  /** `distr_preset_build_uniform`. */
  function BuildUniform(dieSides: nat): (d: Distribution)
  {
    Distribution(Uniform, Ones(dieSides))
  }

  /** The uniform preset gives every one of the `dieSides` sides weight 1, so
      the weights add up to the number of sides. */
  lemma {:induction false} UniformWeights(dieSides: nat)
    ensures |BuildUniform(dieSides).weights| == dieSides
    ensures forall i | 0 <= i < dieSides :: BuildUniform(dieSides).weights[i] == 1
    ensures Sum(BuildUniform(dieSides).weights) == dieSides
  {
    if dieSides > 0 {
      UniformWeights(dieSides - 1);
    }
  }

  /** `distr_preset_build_twodice`: error 2 for no sides, 3 for an odd count. */
  function BuildTwoDice(dieSides: nat): (r: Result<Distribution, nat>)
    ensures dieSides == 0 ==> r == Failure(2)
    ensures dieSides % 2 == 1 ==> r == Failure(3)
    ensures r.Success? <==> dieSides > 0 && dieSides % 2 == 0
  {
    if dieSides == 0 then Failure(2)
    else if dieSides % 2 != 0 then Failure(3)
    else Success(Distribution(TwoDice, Ascending(dieSides / 2) + Descending(dieSides / 2)))
  }

  /** The two-dice weights for `2k` sides are `0, 1, ..., k, ..., 2, 1`: side
      `i + 1` (sum `i + 1` of two `k`-sided dice) has weight `i` below the
      peak and `2k - i` from it on. */
  lemma TwoDiceWeights(k: nat)
    requires k >= 1
    ensures BuildTwoDice(2 * k).Success?
    ensures |BuildTwoDice(2 * k).value.weights| == 2 * k
    ensures forall i | 0 <= i < 2 * k ::
              BuildTwoDice(2 * k).value.weights[i] == if i < k then i else 2 * k - i
  {
    AscendingValues(k);
    DescendingValues(k);
  }

  /** The two-dice weights count every pair of faces once: they add up to `k * k`. */
  lemma TwoDiceWeightSum(k: nat)
    requires k >= 1
    ensures Sum(BuildTwoDice(2 * k).value.weights) == k * k
  {
    AscendingSum(k);
    DescendingSum(k);
    SumConcat(Ascending(k), Descending(k));
  }

  lemma {:induction false} AscendingSum(n: nat)
    ensures 2 * Sum(Ascending(n)) == n * (n - 1)
  {
    if n > 0 {
      AscendingSum(n - 1);
      SumAppend(Ascending(n - 1), n - 1);
      assert n * (n - 1) == (n - 1) * (n - 2) + 2 * (n - 1);
    }
  }

  lemma {:induction false} DescendingSum(n: nat)
    ensures 2 * Sum(Descending(n)) == n * (n + 1)
  {
    if n > 0 {
      DescendingSum(n - 1);
      assert n * (n + 1) == (n - 1) * n + 2 * n;
      SumConcat([n], Descending(n - 1));
      assert Sum([n]) == n by {
        assert [n][..0] == [];
      }
    }
  }

  lemma SixFaces()
    ensures Ascending(6) == [0, 1, 2, 3, 4, 5]
    ensures Descending(6) == [6, 5, 4, 3, 2, 1]
  {
  }

  /** The example of include/distribution.h: two six-sided dice. */
  lemma TwoSixSidedDice()
    ensures BuildTwoDice(12) == Success(Distribution(TwoDice, [0, 1, 2, 3, 4, 5, 6, 5, 4, 3, 2, 1]))
  {
    SixFaces();
    var w := Ascending(6) + Descending(6);
    assert BuildTwoDice(12) == Success(Distribution(TwoDice, w));
    assert w == [0, 1, 2, 3, 4, 5] + [6, 5, 4, 3, 2, 1] == [0, 1, 2, 3, 4, 5, 6, 5, 4, 3, 2, 1];
  }

  /** `distr_build` for the distribution behind `distr` (NULL is `None`) and
      `dieSides` sides. Error codes: 1 no distribution, 3 too many weights or
      a preset without a builder, 3 plus the two-dice builder's code. */
  function Build(distr: Option<Distribution>, dieSides: nat): (r: Result<Distribution, nat>)
    ensures distr.None? ==> r == Failure(1)
    ensures r.Failure? ==> r.error in {1, 3, 5, 6}
    ensures r.Success? ==> |r.value.weights| == dieSides && r.value.preset == distr.value.preset
  {
    match distr
    case None => Failure(1)
    case Some(d) =>
      match d.preset
      case PresetNone =>
        if |d.weights| > dieSides then Failure(3)
        else Success(Distribution(PresetNone, d.weights + Zeros(dieSides - |d.weights|)))
      case Uniform =>
        UniformWeights(dieSides);
        Success(BuildUniform(dieSides))
      case TwoDice =>
        (match BuildTwoDice(dieSides)
         case Failure(e) => Failure(e + 3)
         case Success(t) =>
           assert |t.weights| == dieSides by {
             AscendingValues(dieSides / 2);
             DescendingValues(dieSides / 2);
           }
           Success(t))
      case Upstairs => Failure(3)
      case Downstairs => Failure(3)
  }

  /** A weight list is kept in order and padded with zeros to one weight per
      side; a longer list is rejected with 3. */
  lemma BuildWeightList(ws: seq<nat>, dieSides: nat)
    ensures |ws| > dieSides ==> Build(Some(Distribution(PresetNone, ws)), dieSides) == Failure(3)
    ensures |ws| <= dieSides ==>
              var r := Build(Some(Distribution(PresetNone, ws)), dieSides);
              && r.Success?
              && r.value.weights[..|ws|] == ws
              && forall i | |ws| <= i < dieSides :: r.value.weights[i] == 0
  {
  }

  /** Presets are rebuilt from scratch, whatever weights they held. */
  lemma BuildPresets(ws: seq<nat>, dieSides: nat)
    ensures Build(Some(Distribution(Uniform, ws)), dieSides) == Success(BuildUniform(dieSides))
    ensures dieSides == 0 ==> Build(Some(Distribution(TwoDice, ws)), dieSides) == Failure(5)
    ensures dieSides % 2 == 1 ==> Build(Some(Distribution(TwoDice, ws)), dieSides) == Failure(6)
    ensures dieSides > 0 && dieSides % 2 == 0 ==>
              Build(Some(Distribution(TwoDice, ws)), dieSides) == BuildTwoDice(dieSides)
    ensures Build(Some(Distribution(Upstairs, ws)), dieSides) == Failure(3)
    ensures Build(Some(Distribution(Downstairs, ws)), dieSides) == Failure(3)
  {
  }
}

=== FILE: dynarray.dfy ===
/** The growable array of src/array.c, modelled as its contents plus its
    capacity and element size. Allocation always succeeds in this model, so
    an array's data pointer is NULL exactly when its capacity is 0. Elements
    are compared by value, which is what the default `byte_compare` does. */
module DynArray {
  import opened Common

  datatype Array<T> = Array(items: seq<T>, capacity: nat, elementsize: nat)

  /** What every array the operations produce satisfies: the contents fit in
      the capacity, and an array of zero-sized elements owns no storage. */
  predicate Valid<T>(a: Array<T>)
  {
    && |a.items| <= a.capacity
    && (a.elementsize == 0 ==> a.capacity == 0)
  }

  /** `array_create`. */
  function Create<T>(initcapacity: nat, elementsize: nat): (a: Array<T>)
    ensures Valid(a) && a.items == []
    ensures elementsize == 0 ==> a.capacity == 0 && a.elementsize == 0
    ensures elementsize != 0 ==> a.capacity == initcapacity && a.elementsize == elementsize
  {
    if elementsize == 0 then Array([], 0, 0) else Array([], initcapacity, elementsize)
  }

  /** `array_clear`: empties the array and keeps its storage. */
  function Clear<T>(a: Array<T>): (b: Array<T>)
    requires Valid(a)
    ensures Valid(b)
    ensures |b.items| == 0 && b.capacity == a.capacity && b.elementsize == a.elementsize
  {
    a.(items := [])
  }

  /** `array_free`: releases the storage and keeps the element size. */
  function Free<T>(a: Array<T>): (b: Array<T>)
    ensures Valid(b)
    ensures |b.items| == 0 && b.capacity == 0 && b.elementsize == a.elementsize
  {
    Array([], 0, a.elementsize)
  }

  /** `array_reserve`: grows the capacity to at least `newcapacity`, never shrinks it. */
  function Reserve<T>(a: Array<T>, newcapacity: nat): (r: (bool, Array<T>))
    requires Valid(a)
    ensures Valid(r.1) && r.1.items == a.items && r.1.elementsize == a.elementsize
    ensures r.0 <==> a.elementsize != 0
    ensures !r.0 ==> r.1 == a
    ensures r.0 ==> r.1.capacity >= newcapacity && r.1.capacity >= a.capacity
    ensures a.capacity >= newcapacity ==> r.1 == a
  {
    if a.elementsize == 0 then (false, a)
    else if a.capacity >= newcapacity then (true, a)
    else (true, a.(capacity := newcapacity))
  }

  /** The capacity `array_add` asks for when the array is full. */
  function GrownCapacity(capacity: nat): (c: nat)
    ensures c > capacity && c >= 2
    ensures capacity >= 2 ==> c == capacity + capacity / 2
  {
    if capacity < 2 then 2 else capacity + capacity / 2
  }

  /** `array_add`: appends one element, growing a full array by half its capacity. */
  function Add<T>(a: Array<T>, x: T): (r: Option<Array<T>>)
    requires Valid(a)
    ensures r.Some? <==> a.elementsize != 0
    ensures r.Some? ==> Valid(r.value) && r.value.items == a.items + [x] && r.value.elementsize == a.elementsize
    ensures r.Some? && |a.items| < a.capacity ==> r.value.capacity == a.capacity
    ensures r.Some? && |a.items| == a.capacity ==> r.value.capacity == GrownCapacity(a.capacity)
  {
    var grown :=
      if a.capacity == |a.items| then Reserve(a, GrownCapacity(a.capacity))
      else (a.elementsize != 0, a);
    if !grown.0 then None
    else Some(grown.1.(items := grown.1.items + [x]))
  }

  /** `array_get`: the element at `index`, NULL past the end. */
  function Get<T>(a: Array<T>, index: nat): (r: Option<T>)
    requires Valid(a)
    ensures r.Some? <==> index < |a.items|
    ensures r.Some? ==> r.value == a.items[index]
  {
    if index >= |a.items| || a.elementsize == 0 then None else Some(a.items[index])
  }

  /** `array_rmv`: removes one element, shifting the later ones down. */
  function Rmv<T>(a: Array<T>, index: nat): (r: (bool, Array<T>))
    requires Valid(a)
    ensures Valid(r.1) && r.1.capacity == a.capacity && r.1.elementsize == a.elementsize
    ensures r.0 <==> index < |a.items|
    ensures !r.0 ==> r.1 == a
    ensures r.0 ==> |r.1.items| == |a.items| - 1
    ensures r.0 ==> forall i | 0 <= i < index :: r.1.items[i] == a.items[i]
    ensures r.0 ==> forall i | index <= i < |r.1.items| :: r.1.items[i] == a.items[i + 1]
  {
    if index >= |a.items| then (false, a)
    else (true, a.(items := a.items[..index] + a.items[index + 1..]))
  }

  /** The loop of `array_find`, from position `i` on. */
  function FindFrom<T(==)>(items: seq<T>, x: T, i: nat): (r: Option<nat>)
    requires i <= |items|
    ensures r.Some? ==> i <= r.value < |items| && items[r.value] == x
                        && forall j | i <= j < r.value :: items[j] != x
    ensures r.None? ==> forall j | i <= j < |items| :: items[j] != x
    decreases |items| - i
  {
    if i == |items| then None
    else if items[i] == x then Some(i)
    else FindFrom(items, x, i + 1)
  }

  /** `array_find`: the position of the first element equal to `x`, or NULL. */
  function Find<T(==)>(a: Array<T>, x: T): (r: Option<nat>)
    ensures r.Some? ==> r.value < |a.items| && a.items[r.value] == x
                        && forall j | 0 <= j < r.value :: a.items[j] != x
    ensures r.None? <==> x !in a.items
  {
    FindFrom(a.items, x, 0)
  }

  /** The adding loop of `array_copy`: appends `src[i..]` to `dst`. */
  function CopyFrom<T>(dst: Array<T>, src: seq<T>, i: nat): (r: Option<Array<T>>)
    requires Valid(dst) && dst.elementsize != 0
    requires i <= |src| && |dst.items| + (|src| - i) <= dst.capacity
    ensures r.Some? && Valid(r.value)
    ensures r.value.items == dst.items + src[i..]
    ensures r.value.capacity == dst.capacity && r.value.elementsize == dst.elementsize
    decreases |src| - i
  {
    if i == |src| then
      assert src[i..] == [];
      Some(dst)
    else
      var next := Add(dst, src[i]).value;
      assert src[i..] == [src[i]] + src[i + 1..];
      CopyFrom(next, src, i + 1)
  }

  /** `array_copy`: makes `dst` hold the contents of `src`. */
  function Copy<T>(dst: Array<T>, src: Array<T>): (r: Option<Array<T>>)
    requires Valid(dst)
    ensures r.Some? <==> dst.elementsize != 0
    ensures r.Some? ==> Valid(r.value) && r.value.items == src.items
    ensures r.Some? ==> r.value.capacity == if dst.capacity >= |src.items| then dst.capacity else |src.items|
  {
    var reserved := Reserve(dst, |src.items|);
    if !reserved.0 then None
    else
      assert src.items[0..] == src.items;
      CopyFrom(Clear(reserved.1), src.items, 0)
  }

  /** Removing the element just added restores the previous contents. */
  lemma RmvUndoesAdd<T>(a: Array<T>, x: T)
    requires Valid(a) && a.elementsize != 0
    ensures Rmv(Add(a, x).value, |a.items|).1.items == a.items
  {
    var b := Add(a, x).value;
    assert b.items[..|a.items|] == a.items;
  }

  /** An element not yet present is found exactly where it was added. */
  lemma FindAfterAdd<T>(a: Array<T>, x: T)
    requires Valid(a) && a.elementsize != 0 && x !in a.items
    ensures Find(Add(a, x).value, x) == Some(|a.items|)
  {
    var b := Add(a, x).value;
    assert b.items[|a.items|] == x;
  }
}

=== FILE: games.dfy ===
/** Setting up a game (src/game.c): the board dimensions, the die, and the
    validation of the snakes and ladders before they become the edges of
    the board's graph. A setup error stands for the message and `exit(1)`
    of the source. */
module Games {
  import opened Common
  import Dice
  import Graph
  import SnakesAndLadders
  import Cli

  const WidthMin: nat := 2
  const HeightMin: nat := 2

  /** `game_t`. */
  datatype Game = Game(width: nat, height: nat, die: Dice.Die, exactEnding: bool, adjmat: Graph.AdjMat)

  /** The zero-initialised game `{}`. */
  const ZeroGame: Game := Game(0, 0, Dice.Empty, false, Graph.AdjMat(0, []))

  /** Why a shortcut is rejected, in the order the checks run. */
  datatype SolReason = SrcOutside | DstOutside | SameCell | SrcLast | DstLast | Overlap(other: nat)

  /** Why the setup stops. */
  datatype SetupError = BadDimensions | EmptyDie | BadSol(index: nat, reason: SolReason)

  /** `width * height` in a `size_t`. */
  function CellCount(width: nat, height: nat): (cc: nat)
    ensures cc < U64_MOD
    ensures width * height < U64_MOD ==> cc == width * height
  {
    (width * height) % U64_MOD
  }

  /** Two shortcuts share a cell, whichever of their ends lie on it. */
  predicate Touch(a: SnakesAndLadders.Sol, b: SnakesAndLadders.Sol)
  {
    a.src == b.src || a.src == b.dst || a.dst == b.src || a.dst == b.dst
  }

  /** A shortcut on its own fits a board of `cc` cells: both ends are
      cells of the board other than the last, and they differ. */
  predicate ValidSol(s: SnakesAndLadders.Sol, cc: nat)
  {
    0 < s.src < cc && 0 < s.dst < cc && s.src != s.dst
  }

  /** Shortcut `k` fits the board and shares no cell with an earlier one. */
  predicate OkAt(sals: seq<SnakesAndLadders.Sol>, k: nat, cc: nat)
    requires k < |sals|
  {
    ValidSol(sals[k], cc) && forall m | 0 <= m < k :: !Touch(sals[k], sals[m])
  }

  /** The reference for the validation: every shortcut fits the board and no
      two share a cell. */
  predicate ValidSals(sals: seq<SnakesAndLadders.Sol>, cc: nat)
  {
    && (forall k | 0 <= k < |sals| :: ValidSol(sals[k], cc))
    && (forall k, m | 0 <= m < k < |sals| :: !Touch(sals[k], sals[m]))
  }

  /** The inner loop over earlier shortcuts, from `j` on: the first that
      shares a cell with shortcut `i`. */
  function FirstOverlap(sals: seq<SnakesAndLadders.Sol>, i: nat, j: nat): (r: Option<nat>)
    requires j <= i < |sals|
    ensures r.Some? ==> j <= r.value < i && Touch(sals[i], sals[r.value])
                        && forall m | j <= m < r.value :: !Touch(sals[i], sals[m])
    ensures r.None? ==> forall m | j <= m < i :: !Touch(sals[i], sals[m])
    decreases i - j
  {
    if j == i then None
    else if Touch(sals[i], sals[j]) then Some(j)
    else FirstOverlap(sals, i, j + 1)
  }

  /** The checks of one shortcut, in the source's order. */
  function CheckSol(sals: seq<SnakesAndLadders.Sol>, i: nat, cc: nat): (r: Option<SolReason>)
    requires i < |sals|
    ensures r.None? <==> OkAt(sals, i, cc)
    ensures r == Some(SrcOutside) <==> sals[i].src == 0 || sals[i].src > cc
    ensures r == Some(DstOutside) ==> sals[i].dst == 0 || sals[i].dst > cc
    ensures r == Some(SameCell) ==> sals[i].src == sals[i].dst
    ensures r == Some(SrcLast) ==> sals[i].src == cc
    ensures r == Some(DstLast) ==> sals[i].dst == cc
    ensures r.Some? && r.value.Overlap? ==>
              && ValidSol(sals[i], cc)
              && r.value.other < i && Touch(sals[i], sals[r.value.other])
              && forall m | 0 <= m < r.value.other :: !Touch(sals[i], sals[m])
  {
    var s := sals[i];
    if s.src == 0 || s.src > cc then Some(SrcOutside)
    else if s.dst == 0 || s.dst > cc then Some(DstOutside)
    else if s.src == s.dst then Some(SameCell)
    else if s.src == cc then Some(SrcLast)
    else if s.dst == cc then Some(DstLast)
    else match FirstOverlap(sals, i, 0)
      case Some(j) => Some(Overlap(j))
      case None => None
  }

  /** The validation loop from shortcut `i` on: the first rejected shortcut
      and why, or none. */
  function Validate(sals: seq<SnakesAndLadders.Sol>, i: nat, cc: nat): (r: Option<SetupError>)
    requires i <= |sals|
    ensures r.None? <==> forall k | i <= k < |sals| :: OkAt(sals, k, cc)
    ensures r.Some? ==>
              && r.value.BadSol? && i <= r.value.index < |sals|
              && CheckSol(sals, r.value.index, cc) == Some(r.value.reason)
              && forall k | i <= k < r.value.index :: OkAt(sals, k, cc)
    decreases |sals| - i
  {
    if i == |sals| then None
    else match CheckSol(sals, i, cc)
      case Some(reason) => Some(BadSol(i, reason))
      case None => Validate(sals, i + 1, cc)
  }

  /** Passing every check is the reference property. */
  lemma ValidateIffValid(sals: seq<SnakesAndLadders.Sol>, cc: nat)
    ensures Validate(sals, 0, cc).None? <==> ValidSals(sals, cc)
  {
    if Validate(sals, 0, cc).None? {
      forall k | 0 <= k < |sals| ensures ValidSol(sals[k], cc) {
        assert OkAt(sals, k, cc);
      }
      forall k, m | 0 <= m < k < |sals| ensures !Touch(sals[k], sals[m]) {
        assert OkAt(sals, k, cc);
      }
    }
  }

  /** The shortcuts moved from 1-based to 0-based cells, as edges. */
  function ZeroBased(sals: seq<SnakesAndLadders.Sol>): (es: seq<Graph.Edge>)
    requires forall k | 0 <= k < |sals| :: sals[k].src > 0 && sals[k].dst > 0
    ensures |es| == |sals|
    ensures forall k | 0 <= k < |sals| :: es[k].from + 1 == sals[k].src && es[k].to + 1 == sals[k].dst
  {
    seq(|sals|, k requires 0 <= k < |sals| => Graph.Edge(sals[k].src - 1, sals[k].dst - 1))
  }

  /** `game_setup`. A NULL argument gives the zero game; otherwise the
      dimensions, the die and the shortcuts are checked in that order and
      the first failure wins. */
  function Setup(args: Option<Cli.Args>): (r: Result<Game, SetupError>)
    ensures args.None? ==> r == Success(ZeroGame)
    ensures r == Failure(BadDimensions) <==> args.Some? && (args.value.width < WidthMin || args.value.height < HeightMin)
    ensures r == Failure(EmptyDie) <==>
              && args.Some? && args.value.width >= WidthMin && args.value.height >= HeightMin
              && |args.value.distribution.weights| == 0
    ensures args.Some? && r.Success? <==>
              && args.Some? && args.value.width >= WidthMin && args.value.height >= HeightMin
              && |args.value.distribution.weights| > 0
              && ValidSals(args.value.sals, CellCount(args.value.width, args.value.height))
    ensures args.Some? && r.Failure? && r.error.BadSol? ==>
              Validate(args.value.sals, 0, CellCount(args.value.width, args.value.height)) == Some(r.error)
    ensures args.Some? && r.Success? ==>
              && var a := args.value;
                 var cc := CellCount(a.width, a.height);
                 && r.value.width == a.width && r.value.height == a.height
                 && r.value.die == Dice.Create(Some(a.distribution))
                 && r.value.exactEnding == a.exactEnding
                 && r.value.adjmat == Graph.Create(cc, ZeroBased(a.sals))
  {
    match args
    case None => Success(ZeroGame)
    case Some(a) =>
      if a.width < WidthMin || a.height < HeightMin then Failure(BadDimensions)
      else
        var cc := CellCount(a.width, a.height);
        var die := Dice.Create(Some(a.distribution));
        Dice.CreateIsEmpty(Some(a.distribution));
        if Dice.IsEmpty(Some(die)) then Failure(EmptyDie)
        else match Validate(a.sals, 0, cc)
          case Some(e) => Failure(e)
          case None =>
            ValidateIffValid(a.sals, cc);
            Success(Game(a.width, a.height, die, a.exactEnding, Graph.Create(cc, ZeroBased(a.sals))))
  }

  /** The edges of validated shortcuts lie on the board, are disjoint, and
      never touch the last cell. */
  lemma ValidEdges(sals: seq<SnakesAndLadders.Sol>, cc: nat)
    requires ValidSals(sals, cc)
    ensures Graph.InRange(cc, ZeroBased(sals)) && Graph.Disjoint(ZeroBased(sals))
    ensures forall k | 0 <= k < |sals| :: ZeroBased(sals)[k].from < cc - 1 && ZeroBased(sals)[k].to < cc - 1
  {
    var es := ZeroBased(sals);
    forall i, j | 0 <= i < j < |es|
      ensures es[i].from != es[j].from && es[i].from != es[j].to
      ensures es[i].to != es[j].from && es[i].to != es[j].to
    {
      assert !Touch(sals[j], sals[i]);
    }
  }

  /** The matrix of validated shortcuts holds exactly those shortcuts:
      entry `(a, b)` is 1 iff some shortcut leads from cell `a + 1` to cell
      `b + 1`, and the row of the last cell has no positive entry. */
  lemma BoardEdgesOf(sals: seq<SnakesAndLadders.Sol>, cc: nat, a: nat, b: nat)
    requires ValidSals(sals, cc) && a < cc && b < cc
    ensures var m := Graph.Create(cc, ZeroBased(sals));
            && (m.edges[a][b] > 0 <==> SnakesAndLadders.Sol(a + 1, b + 1) in sals)
            && (m.edges[a][b] > 0 ==> m.edges[a][b] == 1)
            && (a == cc - 1 ==> m.edges[a][b] <= 0)
  {
    var es := ZeroBased(sals);
    ValidEdges(sals, cc);
    Graph.CreateEntries(cc, es, a, b);
    Graph.EntryRefDisjoint(es, a, b);
    Graph.EntryRefSources(es, a, b);
    if SnakesAndLadders.Sol(a + 1, b + 1) in sals {
      var k :| 0 <= k < |sals| && sals[k] == SnakesAndLadders.Sol(a + 1, b + 1);
      assert es[k] == Graph.Edge(a, b);
    }
    if Graph.Edge(a, b) in es {
      var k :| 0 <= k < |es| && es[k] == Graph.Edge(a, b);
      assert sals[k] == SnakesAndLadders.Sol(a + 1, b + 1);
    }
  }

  /** A set-up game's shortcuts are valid for its cell count, and its graph
      is the matrix of those shortcuts. */
  lemma SetupBoard(args: Cli.Args)
    requires Setup(Some(args)).Success?
    ensures ValidSals(args.sals, CellCount(args.width, args.height))
    ensures Setup(Some(args)).value.adjmat == Graph.Create(CellCount(args.width, args.height), ZeroBased(args.sals))
  {
  }

  /** On a set-up board the matrix holds exactly the accepted shortcuts. */
  lemma BoardEdges(args: Cli.Args, a: nat, b: nat)
    requires Setup(Some(args)).Success?
    requires a < CellCount(args.width, args.height) && b < CellCount(args.width, args.height)
    ensures var g := Setup(Some(args)).value;
            g.adjmat.edges[a][b] == 1 <==> SnakesAndLadders.Sol(a + 1, b + 1) in args.sals
    ensures var g := Setup(Some(args)).value;
            a == CellCount(args.width, args.height) - 1 ==> g.adjmat.edges[a][b] <= 0
  {
    SetupBoard(args);
    BoardEdgesOf(args.sals, CellCount(args.width, args.height), a, b);
  }
}

=== FILE: graph.dfy ===
/** The adjacency matrix of src/graph.c: an `n * n` matrix of vertices where an edge `from -> to` stores 1 at row `from`, column `to`
    and -1 at row `to`, column `from`. */
module Graph {
  import opened Common

  /** `edge_t`. */
  datatype Edge = Edge(from: nat, to: nat)

  /** `adjmat_t`: the vertex count and the matrix. The source stores it
      flat, row-major, entry `(a, b)` at index `a * n + b`; here it is a
      sequence of rows, so `edges[a][b]` is that entry. No vertices give no
      rows, which stands for the NULL `edges` pointer. */
  datatype AdjMat = AdjMat(vertexCount: nat, edges: seq<seq<int>>)

  /** Every edge joins two of the `n` vertices, so both of its entries lie
      inside the matrix. */
  predicate InRange(n: nat, es: seq<Edge>)
  {
    forall i | 0 <= i < |es| :: es[i].from < n && es[i].to < n
  }

  /** `n` rows of `n` entries each. */
  predicate Square(w: seq<seq<int>>, n: nat)
  {
    |w| == n && forall a | 0 <= a < n :: |w[a]| == n
  }

  /** `w` with entry `(a, b)` set to `v`. */
  function Set(w: seq<seq<int>>, n: nat, a: nat, b: nat, v: int): (r: seq<seq<int>>)
    requires Square(w, n) && a < n && b < n
    ensures Square(r, n)
    ensures forall c, d | 0 <= c < n && 0 <= d < n ::
              r[c][d] == if c == a && d == b then v else w[c][d]
  {
    w[a := w[a][b := v]]
  }

  /** The loop of `adjmat_create` over the edges: for each edge in turn, 1 at
      `from * n + to` (row `from`, column `to`), then -1 at `from + to * n`
      (row `to`, column `from`). */
  function Write(w: seq<seq<int>>, n: nat, es: seq<Edge>): (r: seq<seq<int>>)
    requires Square(w, n) && InRange(n, es)
    ensures Square(r, n)
  {
    if |es| == 0 then w
    else
      var e := es[|es| - 1];
      var prev := Write(w, n, es[..|es| - 1]);
      Set(Set(prev, n, e.from, e.to, 1), n, e.to, e.from, -1)
  }

  /** An `n * n` matrix of zeros, as `memset` leaves it. */
  function ZeroMatrix(n: nat): (w: seq<seq<int>>)
    ensures Square(w, n)
    ensures forall a, b | 0 <= a < n && 0 <= b < n :: w[a][b] == 0
  {
    seq(n, a => seq(n, b => 0))
  }

  /** `adjmat_create`: an `n * n` matrix of zeros with the edges written in.
      The source leaves edges outside the vertex range unchecked (they write
      outside the matrix); here they are excluded. */
  function Create(n: nat, es: seq<Edge>): (m: AdjMat)
    requires InRange(n, es)
    ensures m.vertexCount == n && Square(m.edges, n)
  {
    if n == 0 then AdjMat(0, [])
    else AdjMat(n, Write(ZeroMatrix(n), n, es))
  }

  /** Reference reading of one entry: the last edge that touches cell
      `(a, b)` decides it, and within one edge the -1 is written second. */
  function EntryRef(es: seq<Edge>, a: nat, b: nat): int
  {
    if |es| == 0 then 0
    else
      var e := es[|es| - 1];
      if e.to == a && e.from == b then -1
      else if e.from == a && e.to == b then 1
      else EntryRef(es[..|es| - 1], a, b)
  }

  lemma {:induction false} WriteEntries(w: seq<seq<int>>, n: nat, es: seq<Edge>, a: nat, b: nat)
    requires Square(w, n) && InRange(n, es) && a < n && b < n
    requires forall c, d | 0 <= c < n && 0 <= d < n :: w[c][d] == 0
    ensures Write(w, n, es)[a][b] == EntryRef(es, a, b)
  {
    if |es| > 0 {
      var pre := es[..|es| - 1];
      assert InRange(n, pre);
      WriteEntries(w, n, pre, a, b);
    }
  }

  /** Every entry of the matrix is the one the reference reading gives. */
  lemma CreateEntries(n: nat, es: seq<Edge>, a: nat, b: nat)
    requires InRange(n, es) && a < n && b < n
    ensures Create(n, es).edges[a][b] == EntryRef(es, a, b)
  {
    WriteEntries(ZeroMatrix(n), n, es, a, b);
  }

  /** Without any condition on the edges: a 1 at `(a, b)` comes from an edge
      `a -> b`, a -1 from an edge `b -> a`, and the diagonal is never 1. */
  lemma {:induction false} EntryRefSources(es: seq<Edge>, a: nat, b: nat)
    ensures EntryRef(es, a, b) in {-1, 0, 1}
    ensures EntryRef(es, a, b) == 1 ==> Edge(a, b) in es
    ensures EntryRef(es, a, b) == -1 ==> Edge(b, a) in es
    ensures EntryRef(es, a, a) != 1
  {
    if |es| > 0 {
      EntryRefSources(es[..|es| - 1], a, b);
      EntryRefSources(es[..|es| - 1], a, a);
    }
  }

  /** The shortcuts a game accepts: no self-loops, and no cell shared by two
      edges, whichever ends touch it. */
  predicate Disjoint(es: seq<Edge>)
  {
    && (forall i | 0 <= i < |es| :: es[i].from != es[i].to)
    && (forall i, j | 0 <= i < j < |es| ::
          && es[i].from != es[j].from && es[i].from != es[j].to
          && es[i].to != es[j].from && es[i].to != es[j].to)
  }

  /** For disjoint edges the matrix holds exactly the edges: 1 at `(a, b)`
      for an edge `a -> b`, -1 for an edge `b -> a`, 0 elsewhere. */
  lemma {:induction false} EntryRefDisjoint(es: seq<Edge>, a: nat, b: nat)
    requires Disjoint(es)
    ensures EntryRef(es, a, b) == 1 <==> Edge(a, b) in es
    ensures EntryRef(es, a, b) == -1 <==> Edge(b, a) in es
    ensures EntryRef(es, a, b) == 0 <==> Edge(a, b) !in es && Edge(b, a) !in es
  {
    EntryRefSources(es, a, b);
    if |es| > 0 {
      var k := |es| - 1;
      var pre := es[..k];
      assert Disjoint(pre);
      EntryRefDisjoint(pre, a, b);
      assert es == pre + [es[k]];
    }
  }

  /** A vertex of a game's graph has at most one positive entry in its row:
      at most one shortcut leaves each cell. */
  lemma OnePositivePerRow(n: nat, es: seq<Edge>, a: nat, b: nat, c: nat)
    requires InRange(n, es) && Disjoint(es) && a < n && b < n && c < n
    requires Create(n, es).edges[a][b] > 0 && Create(n, es).edges[a][c] > 0
    ensures b == c
  {
    CreateEntries(n, es, a, b);
    CreateEntries(n, es, a, c);
    EntryRefSources(es, a, b);
    EntryRefSources(es, a, c);
    EntryRefDisjoint(es, a, b);
    EntryRefDisjoint(es, a, c);
  }
}

=== FILE: numbers.dfy ===
/** `strtouint64` of src/numbers.c, which wraps `strtoul(str, &end, 10)`:
    leading whitespace is skipped, one optional sign is accepted (a minus
    negates modulo 2^64), then a run of decimal digits is read. Error codes:
    1 no string, 2 out of range, 3 no digits, 4 characters after the number. */
module Numbers {
  import opened Common
  import Strings

  predicate IsDigit(c: char)
  {
    '0' <= c <= '9'
  }

  predicate AllDigits(s: string)
  {
    forall i | 0 <= i < |s| :: IsDigit(s[i])
  }

  function DigitValue(c: char): nat
    requires IsDigit(c)
  {
    c as int - '0' as int
  }

  /** The value of a run of decimal digits, most significant first. */
  function DigitsValue(s: string): nat
    requires AllDigits(s)
  {
    if |s| == 0 then 0 else DigitsValue(s[..|s| - 1]) * 10 + DigitValue(s[|s| - 1])
  }

  /** First index at or after `i` whose character is not whitespace. */
  function SkipSpace(s: string, i: nat): (j: nat)
    requires i <= |s|
    ensures i <= j <= |s|
    ensures j < |s| ==> !Strings.IsWhitespace(s[j])
    ensures forall k | i <= k < j :: Strings.IsWhitespace(s[k])
    decreases |s| - i
  {
    if i == |s| || !Strings.IsWhitespace(s[i]) then i else SkipSpace(s, i + 1)
  }

  /** First index at or after `i` whose character is not a digit. */
  function DigitEnd(s: string, i: nat): (j: nat)
    requires i <= |s|
    ensures i <= j <= |s|
    ensures j < |s| ==> !IsDigit(s[j])
    ensures AllDigits(s[i..j])
    decreases |s| - i
  {
    if i == |s| || !IsDigit(s[i]) then i else DigitEnd(s, i + 1)
  }

  /** `strtouint64`. */
  function ParseUint64(str: Option<string>): (r: Result<nat, nat>)
    ensures str.None? <==> r == Failure(1)
    ensures r.Success? ==> r.value <= U64_MAX
    ensures r.Failure? ==> 1 <= r.error <= 4
    ensures str.Some? && |str.value| == 0 ==> r == Failure(3)
    ensures str.Some? && 0 < |str.value| && AllDigits(str.value) ==>
              r == (if DigitsValue(str.value) <= U64_MAX then Success(DigitsValue(str.value)) else Failure(2))
  {
    match str
    case None => Failure(1)
    case Some(s) =>
      var i := SkipSpace(s, 0);
      var signed := i < |s| && (s[i] == '+' || s[i] == '-');
      var negative := i < |s| && s[i] == '-';
      var j := if signed then i + 1 else i;
      var k := DigitEnd(s, j);
      if k == j then Failure(3)
      else
        var v := DigitsValue(s[j..k]);
        assert 0 < |s| && AllDigits(s) ==> i == 0 && j == 0 && k == |s| && s[j..k] == s;
        if v > U64_MAX then Failure(2)
        else if k < |s| then Failure(4)
        else Success(if negative then (U64_MOD - v) % U64_MOD else v)
  }

  /** Decimal rendering of a counter, as `printf("%lu")` prints it. */
  function ToDecimal(n: nat): string
    decreases n
  {
    if n < 10 then ['0' + n as char] else ToDecimal(n / 10) + ['0' + (n % 10) as char]
  }

  /** A decimal rendering is a non-empty digit run whose value is the number. */
  lemma {:induction false} ToDecimalValue(n: nat)
    ensures 0 < |ToDecimal(n)|
    ensures AllDigits(ToDecimal(n))
    ensures DigitsValue(ToDecimal(n)) == n
    decreases n
  {
    if n >= 10 {
      ToDecimalValue(n / 10);
      var s := ToDecimal(n / 10);
      var d := '0' + (n % 10) as char;
      assert ToDecimal(n) == s + [d];
      assert (s + [d])[..|s|] == s;
    }
  }

  /** Round trip: every 64-bit value printed in decimal parses back to itself. */
  lemma ParseToDecimal(n: nat)
    requires n <= U64_MAX
    ensures ParseUint64(Some(ToDecimal(n))) == Success(n)
  {
    ToDecimalValue(n);
  }

  /** A string that starts with anything other than whitespace, a sign or a
      digit holds no number: `strtoul` leaves the end pointer at the start. */
  lemma NoDigitsIsCode3(s: string)
    requires 0 < |s| && !Strings.IsWhitespace(s[0]) && !IsDigit(s[0]) && s[0] != '+' && s[0] != '-'
    ensures ParseUint64(Some(s)) == Failure(3)
  {
    assert SkipSpace(s, 0) == 0;
    assert DigitEnd(s, 0) == 0;
  }

  /** A 64-bit number followed by a character that is not a digit is
      rejected with code 4. */
  lemma TrailingIsCode4(n: nat, c: char, rest: string)
    requires n <= U64_MAX && !IsDigit(c)
    ensures ParseUint64(Some(ToDecimal(n) + [c] + rest)) == Failure(4)
  {
    ToDecimalValue(n);
    var d := ToDecimal(n);
    var s := d + [c] + rest;
    assert !Strings.IsWhitespace(s[0]) && s[0] != '+' && s[0] != '-' by {
      assert s[0] == d[0] && IsDigit(d[0]);
    }
    assert SkipSpace(s, 0) == 0;
    DigitEndOver(s, 0, |d|);
    assert s[0..|d|] == d;
  }

  lemma {:induction false} DigitEndOver(s: string, i: nat, k: nat)
    requires i <= k < |s|
    requires AllDigits(s[i..k]) && !IsDigit(s[k])
    ensures DigitEnd(s, i) == k
    decreases k - i
  {
    if i < k {
      assert s[i] == s[i..k][0];
      assert s[i + 1..k] == s[i..k][1..];
      DigitEndOver(s, i + 1, k);
    }
  }
}

=== FILE: simulation.dfy ===
/** The simulation engine (src/simulator.c): the shortcut tables derived
    from a game's graph, the simulations, and the game loop. The die is
    replaced by a roll oracle: the roll drawn when a simulation has already
    rolled `k` times is `rolls[k]`. Threads are replaced by running the
    simulations one after another. */
module Simulation {
  import opened Common
  import Graph
  import Games
  import SnakesAndLadders
  import Cli

  /** `SIMULATION_DICE_LIMIT`. */
  const DiceLimit: nat := 10000

  /* ---------------------------------------------------------------- */
  /* Shortcut tables                                                  */
  /* ---------------------------------------------------------------- */

  /** The inner loop of `simulator_create` from column `j` on: the first
      column with a positive entry. */
  function FirstPositiveFrom(row: seq<int>, j: nat): (r: Option<nat>)
    requires j <= |row|
    ensures r.Some? ==> j <= r.value < |row| && row[r.value] > 0 && forall k | j <= k < r.value :: row[k] <= 0
    ensures r.None? <==> forall k | j <= k < |row| :: row[k] <= 0
    decreases |row| - j
  {
    if j == |row| then None
    else if row[j] > 0 then Some(j)
    else FirstPositiveFrom(row, j + 1)
  }

  /** The first column of `row` with a positive entry: where the shortcut
      leaving that cell leads. */
  function FirstPositive(row: seq<int>): (r: Option<nat>)
    ensures r.Some? ==> r.value < |row| && row[r.value] > 0 && forall k | 0 <= k < r.value :: row[k] <= 0
    ensures r.None? <==> forall k | 0 <= k < |row| :: row[k] <= 0
  {
    FirstPositiveFrom(row, 0)
  }

  /** How many entries of an index table are present. */
  function Present(ix: seq<Option<nat>>): nat
  {
    if |ix| == 0 then 0 else Present(ix[..|ix| - 1]) + (if ix[|ix| - 1].Some? then 1 else 0)
  }

  /** `solidxs` maps each cell (0-based) to the index of its shortcut in
      `soldsts`, which lists the shortcut destinations (0-based). */
  datatype Tables = Tables(solidxs: seq<Option<nat>>, soldsts: seq<nat>)

  /** The cell loop of `simulator_create` over the first `c` rows. */
  function TablesUpTo(edges: seq<seq<int>>, n: nat, c: nat): (t: Tables)
    requires Graph.Square(edges, n) && c <= n
    ensures |t.solidxs| == c && |t.soldsts| == Present(t.solidxs)
    ensures forall d | 0 <= d < |t.soldsts| :: t.soldsts[d] < n
  {
    if c == 0 then Tables([], [])
    else
      var prev := TablesUpTo(edges, n, c - 1);
      var t := Extend(prev, FirstPositive(edges[c - 1]));
      assert t.solidxs[..c - 1] == prev.solidxs;
      t
  }

  /** One pass of the cell loop: the next cell gets the next index when its
      row has a positive column, which joins the destinations. */
  function Extend(prev: Tables, first: Option<nat>): Tables
  {
    if first.None? then Tables(prev.solidxs + [None], prev.soldsts)
    else Tables(prev.solidxs + [Some(|prev.soldsts|)], prev.soldsts + [first.value])
  }

  /** The tables agree with the rows of the matrix: a cell has an entry iff
      its row has a positive entry, the entries number the cells with
      shortcuts in cell order, and each leads to the first positive column. */
  predicate TablesMatch(edges: seq<seq<int>>, t: Tables)
    requires |t.solidxs| <= |edges|
  {
    forall k | 0 <= k < |t.solidxs| :: EntryMatches(edges, t, k)
  }

  /** Entry `k` of the tables agrees with row `k` of the matrix. */
  predicate EntryMatches(edges: seq<seq<int>>, t: Tables, k: nat)
    requires k < |t.solidxs| && k < |edges|
  {
    && (t.solidxs[k].Some? <==> FirstPositive(edges[k]).Some?)
    && (t.solidxs[k].Some? ==>
          && t.solidxs[k].value == Present(t.solidxs[..k])
          && t.solidxs[k].value < |t.soldsts|
          && t.soldsts[t.solidxs[k].value] == FirstPositive(edges[k]).value)
  }

  /** One pass of the cell loop keeps the tables in agreement with the rows. */
  lemma ExtendMatch(edges: seq<seq<int>>, prev: Tables)
    requires |prev.solidxs| < |edges| && |prev.soldsts| == Present(prev.solidxs)
    requires TablesMatch(edges, prev)
    ensures TablesMatch(edges, Extend(prev, FirstPositive(edges[|prev.solidxs|])))
  {
    var c := |prev.solidxs|;
    var t := Extend(prev, FirstPositive(edges[c]));
    forall k | 0 <= k <= c
      ensures EntryMatches(edges, t, k)
    {
      if k < c {
        assert EntryMatches(edges, prev, k);
        assert t.solidxs[..k] == prev.solidxs[..k];
        assert t.solidxs[k] == prev.solidxs[k];
      } else {
        assert t.solidxs[..k] == prev.solidxs;
      }
    }
  }

  lemma {:induction false} TablesUpToMatch(edges: seq<seq<int>>, n: nat, c: nat)
    requires Graph.Square(edges, n) && c <= n
    ensures TablesMatch(edges, TablesUpTo(edges, n, c))
  {
    if c > 0 {
      var prev := TablesUpTo(edges, n, c - 1);
      TablesUpToMatch(edges, n, c - 1);
      ExtendMatch(edges, prev);
      assert TablesUpTo(edges, n, c) == Extend(prev, FirstPositive(edges[|prev.solidxs|]));
    }
  }

  /** The tables of a whole adjacency matrix. */
  function BuildTables(m: Graph.AdjMat): (t: Tables)
    requires Graph.Square(m.edges, m.vertexCount)
    ensures |t.solidxs| == m.vertexCount && |t.soldsts| == Present(t.solidxs)
  {
    TablesUpTo(m.edges, m.vertexCount, m.vertexCount)
  }

  /** What the game loop needs of the tables of an `n`-cell board: one
      entry per cell, present indices inside `soldsts`, destinations on the
      board. */
  predicate TablesFit(t: Tables, n: nat)
  {
    && |t.solidxs| == n
    && (forall c | 0 <= c < n && t.solidxs[c].Some? :: t.solidxs[c].value < |t.soldsts|)
    && (forall d | 0 <= d < |t.soldsts| :: t.soldsts[d] < n)
  }

  /** The tables built from a matrix fit the board, and their indices count
      the cells with shortcuts in cell order. */
  lemma BuildTablesFit(m: Graph.AdjMat)
    requires Graph.Square(m.edges, m.vertexCount)
    ensures TablesFit(BuildTables(m), m.vertexCount) && TablesMatch(m.edges, BuildTables(m))
  {
    var t := BuildTables(m);
    TablesUpToMatch(m.edges, m.vertexCount, m.vertexCount);
    forall c | 0 <= c < m.vertexCount && t.solidxs[c].Some? ensures t.solidxs[c].value < |t.soldsts| {
      assert EntryMatches(m.edges, t, c);
    }
  }

  /** On the board of validated shortcuts the tables list exactly those
      shortcuts: cell `c` has an entry iff a shortcut starts at cell
      `c + 1`, and the entry leads to that shortcut's destination, which is
      never the last cell. */
  lemma TablesOfShortcuts(sals: seq<SnakesAndLadders.Sol>, n: nat, c: nat)
    requires Games.ValidSals(sals, n) && c < n
    ensures var t := BuildTables(Graph.Create(n, Games.ZeroBased(sals)));
            && (t.solidxs[c].Some? <==> exists k | 0 <= k < |sals| :: sals[k].src == c + 1)
            && (t.solidxs[c].Some? ==>
                  && t.solidxs[c].value < |t.soldsts|
                  && SnakesAndLadders.Sol(c + 1, t.soldsts[t.solidxs[c].value] + 1) in sals
                  && t.soldsts[t.solidxs[c].value] + 1 < n)
  {
    var m := Graph.Create(n, Games.ZeroBased(sals));
    var t := BuildTables(m);
    BuildTablesFit(m);
    assert EntryMatches(m.edges, t, c);
    if t.solidxs[c].Some? {
      var j := FirstPositive(m.edges[c]).value;
      Games.BoardEdgesOf(sals, n, c, j);
      var k :| 0 <= k < |sals| && sals[k] == SnakesAndLadders.Sol(c + 1, j + 1);
      assert Games.ValidSol(sals[k], n);
    } else if exists k | 0 <= k < |sals| :: sals[k].src == c + 1 {
      var k :| 0 <= k < |sals| && sals[k].src == c + 1;
      var j := sals[k].dst - 1;
      assert Games.ValidSol(sals[k], n);
      Games.BoardEdgesOf(sals, n, c, j);
    }
  }

  /* ---------------------------------------------------------------- */
  /* Simulations and the simulator                                    */
  /* ---------------------------------------------------------------- */

  /** `simulation_t` without its thread and its back pointer. */
  datatype Simulation = Simulation(aborted: bool, playerpos: nat, soluses: seq<nat>, dices: seq<nat>)

  /** `simulation_create_empty`. */
  const EmptySimulation: Simulation := Simulation(false, 0, [], [])

  /** `simulator_t`. */
  datatype Simulator = Simulator(
    game: Option<Games.Game>,
    dicelimit: nat,
    soldsts: seq<nat>,
    solidxs: seq<Option<nat>>,
    sims: seq<Simulation>)

  /** `simulator_create_empty`. */
  const EmptySimulator: Simulator := Simulator(None, 0, [], [], [])

  /** `simulation_create`: no rolls yet, not aborted, and a zero usage
      counter per shortcut; a NULL simulator gives the empty simulation. */
  function CreateSimulation(simulator: Option<Simulator>): (sim: Simulation)
    ensures simulator.None? ==> sim == EmptySimulation
    ensures !sim.aborted && sim.playerpos == 0 && sim.dices == []
    ensures simulator.Some? ==> |sim.soluses| == |simulator.value.soldsts| && Sum(sim.soluses) == 0
  {
    match simulator
    case None => EmptySimulation
    case Some(s) =>
      SumZeros(|s.soldsts|);
      Simulation(false, 0, Zeros(|s.soldsts|), [])
  }

  /** A board a simulator can use: the graph is a square matrix. */
  predicate Playable(g: Games.Game)
  {
    Graph.Square(g.adjmat.edges, g.adjmat.vertexCount)
  }

  /** `simulator_create`: the tables of the game's graph and `simcount`
      fresh simulations. A NULL game or no simulations give the empty
      simulator. */
  function CreateSimulator(game: Option<Games.Game>, simcount: nat, dicelimit: nat): (s: Simulator)
    requires game.Some? ==> Playable(game.value)
    ensures game.None? || simcount == 0 <==> s == EmptySimulator
    ensures game.Some? && simcount > 0 ==>
              && s.game == game && s.dicelimit == dicelimit
              && Tables(s.solidxs, s.soldsts) == BuildTables(game.value.adjmat)
              && |s.sims| == simcount
              && forall i | 0 <= i < simcount :: s.sims[i] == CreateSimulation(Some(s))
  {
    if game.None? || simcount == 0 then EmptySimulator
    else
      var t := BuildTables(game.value.adjmat);
      var start := Simulation(false, 0, Zeros(|t.soldsts|), []);
      Simulator(game, dicelimit, t.soldsts, t.solidxs, seq(simcount, i => start))
  }

  /** Every board that `game_setup` produces can be simulated. */
  lemma SetupPlayable(args: Option<Cli.Args>)
    requires Games.Setup(args).Success?
    ensures Playable(Games.Setup(args).value)
  {
  }

  /* ---------------------------------------------------------------- */
  /* The game loop                                                    */
  /* ---------------------------------------------------------------- */

  /** A simulator whose tables fit its game's board. */
  predicate Ready(s: Simulator)
  {
    s.game.Some? && TablesFit(Tables(s.solidxs, s.soldsts), s.game.value.adjmat.vertexCount)
  }

  /** The last cell (1-based), the goal of the game. */
  function LastCell(s: Simulator): nat
    requires s.game.Some?
  {
    s.game.value.adjmat.vertexCount
  }

  /** A simulation of the simulator: one usage counter per shortcut and the
      player on the board. */
  predicate Fits(s: Simulator, sim: Simulation)
    requires s.game.Some?
  {
    |sim.soluses| == |s.soldsts| && sim.playerpos <= LastCell(s)
  }

  /** Every roll of the oracle is a side of a non-empty die. */
  predicate ValidRolls(rolls: seq<nat>)
  {
    forall k | 0 <= k < |rolls| :: rolls[k] >= 1
  }

  /** One pass of the loop of `simulation_run` with the rolled `side`: the
      new state, and whether the game ended (the `break`). */
  function Step(s: Simulator, sim: Simulation, side: nat): (r: (Simulation, bool))
    requires Ready(s) && Fits(s, sim) && sim.playerpos < LastCell(s) && side >= 1
    ensures Fits(s, r.0)
    ensures r.0.dices == sim.dices + [side] && r.0.aborted == sim.aborted
    ensures r.1 <==> sim.playerpos + side == LastCell(s) || (!s.game.value.exactEnding && sim.playerpos + side > LastCell(s))
    ensures r.1 ==> r.0.playerpos == LastCell(s) && r.0.soluses == sim.soluses
    ensures !r.1 && sim.playerpos + side > LastCell(s) ==> r.0 == sim.(dices := r.0.dices)
    ensures sim.playerpos + side < LastCell(s) ==>
              var landed := sim.playerpos + side;
              match s.solidxs[landed - 1]
              case None => r.0.playerpos == landed && r.0.soluses == sim.soluses
              case Some(idx) =>
                && r.0.playerpos == s.soldsts[idx] + 1
                && r.0.soluses == sim.soluses[idx := sim.soluses[idx] + 1]
    ensures Sum(r.0.soluses) <= Sum(sim.soluses) + 1
  {
    var last := LastCell(s);
    var pos := sim.playerpos;
    var dices := sim.dices + [side];
    if pos + side == last || (!s.game.value.exactEnding && pos + side > last) then
      (sim.(playerpos := last, dices := dices), true)
    else if pos + side > last then
      (sim.(dices := dices), false)
    else
      var landed := pos + side;
      match s.solidxs[landed - 1]
      case None => (sim.(playerpos := landed, dices := dices), false)
      case Some(idx) =>
        SumIncrement(sim.soluses, idx);
        (sim.(playerpos := s.soldsts[idx] + 1, soluses := sim.soluses[idx := sim.soluses[idx] + 1], dices := dices), false)
  }

  /** The loop of `simulation_run`: roll while the player is not on the last
      cell and fewer than `dicelimit` rolls were made. */
  function Loop(s: Simulator, rolls: seq<nat>, sim: Simulation): (r: Simulation)
    requires Ready(s) && Fits(s, sim) && |rolls| >= s.dicelimit && ValidRolls(rolls)
    ensures Fits(s, r) && r.aborted == sim.aborted
    ensures r.playerpos == LastCell(s) || |r.dices| >= s.dicelimit
    ensures sim.playerpos == LastCell(s) || |sim.dices| >= s.dicelimit ==> r == sim
    ensures |sim.dices| <= |r.dices|
    ensures |sim.dices| < s.dicelimit ==>
              |r.dices| <= s.dicelimit && r.dices == sim.dices + rolls[|sim.dices|..|r.dices|]
    ensures Sum(r.soluses) <= Sum(sim.soluses) + (|r.dices| - |sim.dices|)
    decreases s.dicelimit - |sim.dices|
  {
    if sim.playerpos == LastCell(s) || |sim.dices| >= s.dicelimit then sim
    else
      var side := rolls[|sim.dices|];
      var (next, stop) := Step(s, sim, side);
      if stop then
        assert rolls[|sim.dices|..|next.dices|] == [side];
        next
      else
        var r := Loop(s, rolls, next);
        assert |next.dices| < s.dicelimit ==>
                 rolls[|sim.dices|..|r.dices|] == [side] + rolls[|next.dices|..|r.dices|];
        r
  }

  /** `simulation_run`: NULL gives 1; otherwise the player starts outside
      the board (position 0), the loop runs, and a game stopped by the dice
      limit before reaching the last cell is marked aborted. */
  function Run(sim: Option<Simulation>, s: Simulator, rolls: seq<nat>): (r: Result<Simulation, nat>)
    requires Ready(s) && |rolls| >= s.dicelimit && ValidRolls(rolls)
    requires sim.Some? ==> |sim.value.soluses| == |s.soldsts|
    ensures sim.None? <==> r == Failure(1)
    ensures r.Success? ==>
              && r.value == Loop(s, rolls, sim.value.(playerpos := 0)).(aborted := r.value.aborted)
              && (r.value.aborted <==>
                    (sim.value.aborted || (|r.value.dices| == s.dicelimit && r.value.playerpos != LastCell(s))))
  {
    match sim
    case None => Failure(1)
    case Some(x) =>
      var end := Loop(s, rolls, x.(playerpos := 0));
      if |end.dices| == s.dicelimit && end.playerpos != LastCell(s) then Success(end.(aborted := true))
      else Success(end)
  }

  /** A fresh simulation ends won (on the last cell) or aborted, never both;
      it rolls at most `dicelimit` times, takes the oracle's rolls in order,
      and uses at most one shortcut per roll. */
  lemma RunFresh(s: Simulator, rolls: seq<nat>)
    requires Ready(s) && |rolls| >= s.dicelimit && ValidRolls(rolls)
    ensures var r := Run(Some(CreateSimulation(Some(s))), s, rolls).value;
            && (r.aborted <==> r.playerpos != LastCell(s))
            && |r.dices| <= s.dicelimit
            && r.dices == rolls[..|r.dices|]
            && Sum(r.soluses) <= |r.dices|
  {
    var start := CreateSimulation(Some(s));
    var end := Loop(s, rolls, start.(playerpos := 0));
    if s.dicelimit > 0 {
      assert [] + rolls[0..|end.dices|] == rolls[..|end.dices|];
    }
  }

  /** Every shortcut of the tables leads to a cell before the last. */
  predicate ShortcutsBeforeLast(s: Simulator)
    requires Ready(s)
  {
    forall c | 0 <= c < |s.solidxs| && s.solidxs[c].Some? :: s.soldsts[s.solidxs[c].value] + 1 < LastCell(s)
  }

  /** The tables list exactly the shortcuts `sals`: cell `c` has an entry
      iff a shortcut starts at cell `c + 1`, and the entry is that
      shortcut's destination. */
  predicate ListsShortcuts(s: Simulator, sals: seq<SnakesAndLadders.Sol>)
    requires Ready(s)
  {
    forall c | 0 <= c < |s.solidxs| ::
      && (s.solidxs[c].Some? <==> exists k | 0 <= k < |sals| :: sals[k].src == c + 1)
      && (s.solidxs[c].Some? ==> SnakesAndLadders.Sol(c + 1, s.soldsts[s.solidxs[c].value] + 1) in sals)
  }

  /** The tables of a board of validated shortcuts list exactly those
      shortcuts, and none of them leads to the last cell. */
  lemma TablesOfBoard(sals: seq<SnakesAndLadders.Sol>, n: nat, s: Simulator)
    requires Games.ValidSals(sals, n)
    requires s.game.Some? && s.game.value.adjmat == Graph.Create(n, Games.ZeroBased(sals))
    requires Tables(s.solidxs, s.soldsts) == BuildTables(s.game.value.adjmat)
    ensures Ready(s) && ShortcutsBeforeLast(s) && ListsShortcuts(s, sals)
  {
    BuildTablesFit(s.game.value.adjmat);
    forall c | 0 <= c < |s.solidxs|
      ensures (s.solidxs[c].Some? <==> exists k | 0 <= k < |sals| :: sals[k].src == c + 1)
      ensures s.solidxs[c].Some? ==>
                && s.soldsts[s.solidxs[c].value] + 1 < LastCell(s)
                && SnakesAndLadders.Sol(c + 1, s.soldsts[s.solidxs[c].value] + 1) in sals
    {
      TablesOfShortcuts(sals, n, c);
    }
  }

  /** The simulator of a set-up game is ready to run, its tables list
      exactly the game's shortcuts, and none of them leads to the last
      cell. */
  lemma SimulatorOfGame(args: Cli.Args, simcount: nat, dicelimit: nat)
    requires Games.Setup(Some(args)).Success? && simcount > 0
    ensures var s := CreateSimulator(Some(Games.Setup(Some(args)).value), simcount, dicelimit);
            Ready(s) && ShortcutsBeforeLast(s) && ListsShortcuts(s, args.sals)
  {
    var g := Games.Setup(Some(args)).value;
    var n := Games.CellCount(args.width, args.height);
    Games.SetupBoard(args);
    SetupPlayable(Some(args));
    var s := CreateSimulator(Some(g), simcount, dicelimit);
    TablesOfBoard(args.sals, n, s);
  }

  /** With shortcuts that stop before the last cell, a step that does not
      end the game leaves the player before the last cell. */
  lemma StepStaysBeforeLast(s: Simulator, sim: Simulation, side: nat)
    requires Ready(s) && ShortcutsBeforeLast(s)
    requires Fits(s, sim) && sim.playerpos < LastCell(s) && side >= 1
    ensures !Step(s, sim, side).1 ==> Step(s, sim, side).0.playerpos < LastCell(s)
  {
  }

  /** One more pass of the loop when it does not stop at once. */
  lemma LoopUnfold(s: Simulator, rolls: seq<nat>, sim: Simulation)
    requires Ready(s) && Fits(s, sim) && |rolls| >= s.dicelimit && ValidRolls(rolls)
    requires sim.playerpos != LastCell(s) && |sim.dices| < s.dicelimit
    ensures var st := Step(s, sim, rolls[|sim.dices|]);
            Loop(s, rolls, sim) == if st.1 then st.0 else Loop(s, rolls, st.0)
  {
  }

  /** Without shortcuts and without an exact ending a roll moves the
      player by its value, up to the last cell, where the game ends. */
  lemma StepWithoutShortcuts(s: Simulator, sim: Simulation, side: nat)
    requires Ready(s) && Fits(s, sim) && sim.playerpos < LastCell(s) && side >= 1
    requires !s.game.value.exactEnding
    requires forall c | 0 <= c < |s.solidxs| :: s.solidxs[c].None?
    ensures Step(s, sim, side).0.playerpos == Min(sim.playerpos + side, LastCell(s))
    ensures Step(s, sim, side).1 <==> sim.playerpos + side >= LastCell(s)
  {
  }

  /** Without shortcuts and without the exact-ending rule the player simply
      advances by the sum of the rolls, stopping at the last cell. */
  lemma {:induction false} WalkWithoutShortcuts(s: Simulator, rolls: seq<nat>, sim: Simulation)
    requires Ready(s) && Fits(s, sim) && |rolls| >= s.dicelimit && ValidRolls(rolls)
    requires !s.game.value.exactEnding
    requires forall c | 0 <= c < |s.solidxs| :: s.solidxs[c].None?
    requires |sim.dices| <= s.dicelimit
    ensures var r := Loop(s, rolls, sim);
            r.playerpos == Min(sim.playerpos + Sum(rolls[|sim.dices|..|r.dices|]), LastCell(s))
    decreases s.dicelimit - |sim.dices|
  {
    var r := Loop(s, rolls, sim);
    var i := |sim.dices|;
    if sim.playerpos == LastCell(s) || i >= s.dicelimit {
      assert rolls[i..|r.dices|] == [];
    } else {
      var side := rolls[i];
      var st := Step(s, sim, side);
      LoopUnfold(s, rolls, sim);
      StepWithoutShortcuts(s, sim, side);
      var j := |r.dices|;
      assert rolls[i..j] == [side] + rolls[i + 1..j];
      SumCons(side, rolls[i + 1..j]);
      if st.1 {
        assert rolls[i + 1..j] == [];
      } else {
        var next := st.0;
        assert r == Loop(s, rolls, next) && |next.dices| == i + 1;
        WalkWithoutShortcuts(s, rolls, next);
      }
    }
  }

  function Min(a: nat, b: nat): nat
  {
    if a < b then a else b
  }

  /** `simulate` without threads: every simulation of the simulator run on
      its own roll oracle. */
  function RunAll(s: Simulator, rolls: seq<seq<nat>>): (r: Simulator)
    requires Ready(s) && |rolls| == |s.sims|
    requires forall i | 0 <= i < |rolls| :: |rolls[i]| >= s.dicelimit && ValidRolls(rolls[i])
    requires forall i | 0 <= i < |s.sims| :: |s.sims[i].soluses| == |s.soldsts|
    ensures r == s.(sims := r.sims) && |r.sims| == |s.sims|
    ensures forall i | 0 <= i < |s.sims| :: Run(Some(s.sims[i]), s, rolls[i]) == Success(r.sims[i])
  {
    s.(sims := seq(|s.sims|, i requires 0 <= i < |s.sims| => Run(Some(s.sims[i]), s, rolls[i]).value))
  }
}

=== FILE: snakesandladders.dfy ===
/** Snakes and ladders as written on the command line (src/snakesandladders.c):
    a pair of 1-based cells `src-dst`. */
module SnakesAndLadders {
  import opened Common
  import Strings
  import Numbers

  /** `snakeorladder_t`. */
  datatype Sol = Sol(src: nat, dst: nat)

  /** `issnake`: the shortcut leads backwards. */
  function IsSnake(sol: Option<Sol>): bool
  {
    sol.Some? && sol.value.src > sol.value.dst
  }

  /** `isladder`: the shortcut leads forwards, so it is a snake read the other way round. */
  function IsLadder(sol: Option<Sol>): (b: bool)
    ensures sol.None? ==> !b
    ensures sol.Some? ==> b == IsSnake(Some(Sol(sol.value.dst, sol.value.src)))
  {
    sol.Some? && sol.value.src < sol.value.dst
  }

  /** A shortcut is never both; it is one of the two unless it is a self-loop.
      Reversing a shortcut turns a snake into a ladder and a ladder into a snake,
      and the missing shortcut is neither. */
  lemma SnakeOrLadder(sol: Option<Sol>)
    ensures !(IsSnake(sol) && IsLadder(sol))
    ensures sol.Some? ==> (IsSnake(sol) || IsLadder(sol) <==> sol.value.src != sol.value.dst)
    ensures sol.Some? ==> IsSnake(sol) == IsLadder(Some(Sol(sol.value.dst, sol.value.src)))
    ensures sol.Some? ==> IsLadder(sol) == IsSnake(Some(Sol(sol.value.dst, sol.value.src)))
    ensures sol.None? ==> !IsSnake(sol) && !IsLadder(sol)
  {
  }

  /** `strtosol`: the pair and the error code. Every failure yields `0-0`. */
  function StrToSol(str: Option<string>): (r: (Sol, nat))
    ensures r.1 != 0 ==> r.0 == Sol(0, 0)
    ensures str.None? ==> r.1 == 1
    ensures str.Some? && '-' !in str.value ==> r.1 == 3
    ensures r.1 == 0 ==>
              && str.Some?
              && var parts := Strings.SplitNext(str, '-');
                 && parts.second.Some?
                 && Numbers.ParseUint64(parts.first) == Success(r.0.src)
                 && Numbers.ParseUint64(parts.second) == Success(r.0.dst)
    ensures str.Some? && '-' in str.value ==>
              var parts := Strings.SplitNext(str, '-');
              match Numbers.ParseUint64(parts.first)
              case Failure(e) => r.1 == e + 2
              case Success(a) =>
                match Numbers.ParseUint64(parts.second)
                case Failure(e) => r.1 == e + 5
                case Success(b) => r == (Sol(a, b), 0)
    ensures r.1 in {0, 1, 3, 4, 5, 6, 7, 8, 9}
  {
    match str
    case None => (Sol(0, 0), 1)
    case Some(s) =>
      var parts := Strings.SplitNext(str, '-');
      if parts.second.None? then (Sol(0, 0), 3)
      else match Numbers.ParseUint64(parts.first)
        case Failure(e) => (Sol(0, 0), e + 2)
        case Success(a) =>
          match Numbers.ParseUint64(parts.second)
          case Failure(e) => (Sol(0, 0), e + 5)
          case Success(b) => (Sol(a, b), 0)
  }

  /** The text `a-b` for a shortcut. */
  function Format(sol: Sol): string
  {
    Numbers.ToDecimal(sol.src) + "-" + Numbers.ToDecimal(sol.dst)
  }

  /** Round trip: parsing the text of a 64-bit shortcut gives it back without error. */
  lemma StrToSolFormat(sol: Sol)
    requires sol.src <= U64_MAX && sol.dst <= U64_MAX
    ensures StrToSol(Some(Format(sol))) == (sol, 0)
  {
    var a := Numbers.ToDecimal(sol.src);
    var b := Numbers.ToDecimal(sol.dst);
    Numbers.ToDecimalValue(sol.src);
    Numbers.ToDecimalValue(sol.dst);
    Numbers.ParseToDecimal(sol.src);
    Numbers.ParseToDecimal(sol.dst);
    var s := Format(sol);
    assert s == a + ['-'] + b;
    assert '-' !in a by {
      forall k | 0 <= k < |a| ensures a[k] != '-' {
        assert Numbers.IsDigit(a[k]);
      }
    }
    var i := Strings.IndexOf(s, '-');
    assert i == |a| by {
      assert s[|a|] == '-';
      forall j | 0 <= j < |a| ensures s[j] != '-' {
        assert s[j] == a[j];
      }
    }
    assert s[..i] == a;
    assert s[i + 1..] == b;
  }

  /** Neither end is rejected for being 0 (the comment in
      include/snakesandladders.h promises codes 7 and 11 for zero cells). */
  lemma ZeroCellsAccepted()
    ensures StrToSol(Some("0-0")) == (Sol(0, 0), 0)
  {
    var s := "0-0";
    assert Strings.IndexOf(s, '-') == 1;
    assert s[..1] == "0" && s[2..] == "0";
    assert Numbers.DigitEnd("0", 0) == 1;
    assert Numbers.DigitsValue("0") == 0;
  }

  /** A malformed part after '-' is reported as 8 (no digits) or 9 (trailing
      characters), where the header comment promises 9 and 10. */
  lemma RightPartNoDigits()
    ensures StrToSol(Some("1-x")).1 == 8
  {
    var s := "1-x";
    assert Strings.IndexOf(s, '-') == 1;
    assert s[..1] == Numbers.ToDecimal(1) && s[2..] == "x";
    Numbers.ParseToDecimal(1);
    Numbers.NoDigitsIsCode3("x");
  }

  lemma RightPartTrailing()
    ensures StrToSol(Some("1-2x")).1 == 9
  {
    var s := "1-2x";
    assert Strings.IndexOf(s, '-') == 1;
    assert s[..1] == Numbers.ToDecimal(1) && s[2..] == Numbers.ToDecimal(2) + ['x'] + "";
    Numbers.ParseToDecimal(1);
    Numbers.TrailingIsCode4(2, 'x', "");
  }
}

=== FILE: statistics.dfy ===
/** The statistics over all simulations of a simulator
    (src/statistics.c): a left fold over the simulations followed by the
    averages and rates, which are exact reals here. The usage minima start
    at a parameter: 0 as in the source (`AnalyzeAsWritten`), `ULONG_MAX`
    as intended (`Analyze`). */
module Statistics {
  import opened Common
  import SnakesAndLadders
  import Simulation

  /** `valstats_t`. */
  datatype ValStats = ValStats(sum: nat, min: nat, max: nat, avg: real)

  /** `solstats_t`. */
  datatype SolStats = SolStats(sol: SnakesAndLadders.Sol, uses: ValStats)

  /** `stats_t`. */
  datatype Stats = Stats(
    sims: nat,
    wins: nat,
    losses: nat,
    winrate: real,
    lossrate: real,
    dicelimit: nat,
    dices: ValStats,
    shortestdices: seq<nat>,
    salsuses: ValStats,
    snakesuses: ValStats,
    laddersuses: ValStats,
    snakesuserate: real,
    laddersuserate: real,
    sals: seq<SolStats>)

  const ZeroValStats: ValStats := ValStats(0, 0, 0, 0.0)

  /** `stats_create`: everything 0 except the roll-count minimum, which
      starts at `ULONG_MAX`. */
  const Initial: Stats :=
    Stats(0, 0, 0, 0.0, 0.0, 0, ZeroValStats.(min := U64_MAX), [], ZeroValStats, ZeroValStats, ZeroValStats, 0.0, 0.0, [])

  /* ---------------------------------------------------------------- */
  /* Summary statistics of a list of values                           */
  /* ---------------------------------------------------------------- */

  /** One value added to the summary: its sum, and the `>`/`<` updates of
      the minimum and maximum. */
  function Absorb(v: ValStats, x: nat): ValStats
  {
    ValStats(v.sum + x, if v.min > x then x else v.min, if v.max < x then x else v.max, v.avg)
  }

  /** The values added one after another. */
  function AbsorbAll(v: ValStats, xs: seq<nat>): ValStats
  {
    if |xs| == 0 then v else Absorb(AbsorbAll(v, xs[..|xs| - 1]), xs[|xs| - 1])
  }

  /** The summary of a list of values: the sum grows by their sum, the
      minimum is the least of the start and the values, the maximum the
      greatest. */
  lemma {:induction false} AbsorbAllSummary(v: ValStats, xs: seq<nat>)
    ensures AbsorbAll(v, xs).sum == v.sum + Sum(xs)
    ensures AbsorbAll(v, xs).min <= v.min && forall i | 0 <= i < |xs| :: AbsorbAll(v, xs).min <= xs[i]
    ensures AbsorbAll(v, xs).min == v.min || exists i | 0 <= i < |xs| :: AbsorbAll(v, xs).min == xs[i]
    ensures AbsorbAll(v, xs).max >= v.max && forall i | 0 <= i < |xs| :: AbsorbAll(v, xs).max >= xs[i]
    ensures AbsorbAll(v, xs).max == v.max || exists i | 0 <= i < |xs| :: AbsorbAll(v, xs).max == xs[i]
    ensures AbsorbAll(v, xs).avg == v.avg
  {
    if |xs| > 0 {
      var n := |xs| - 1;
      var pre := xs[..n];
      AbsorbAllSummary(v, pre);
      var p := AbsorbAll(v, pre);
      assert forall i | 0 <= i < n :: pre[i] == xs[i];
      if p.min != v.min && p.min <= xs[n] {
        var i :| 0 <= i < n && p.min == pre[i];
        assert AbsorbAll(v, xs).min == xs[i];
      }
      if p.max != v.max && p.max >= xs[n] {
        var i :| 0 <= i < n && p.max == pre[i];
        assert AbsorbAll(v, xs).max == xs[i];
      }
    }
  }

  /** A summary whose minimum starts at 0 reports 0 whatever the values. */
  lemma ZeroMinStaysZero(v: ValStats, xs: seq<nat>)
    requires v.min == 0
    ensures AbsorbAll(v, xs).min == 0
  {
    AbsorbAllSummary(v, xs);
  }

  /** A summary whose minimum starts at `ULONG_MAX` reports the least of
      non-empty 64-bit values. */
  lemma MaxMinFindsLeast(v: ValStats, xs: seq<nat>)
    requires v.min == U64_MAX && |xs| > 0
    requires forall i | 0 <= i < |xs| :: xs[i] <= U64_MAX
    ensures exists i | 0 <= i < |xs| :: AbsorbAll(v, xs).min == xs[i]
    ensures forall i | 0 <= i < |xs| :: AbsorbAll(v, xs).min <= xs[i]
  {
    AbsorbAllSummary(v, xs);
    if AbsorbAll(v, xs).min == v.min {
      assert AbsorbAll(v, xs).min <= xs[0];
    }
  }

  /* ---------------------------------------------------------------- */
  /* Shortcut statistics                                              */
  /* ---------------------------------------------------------------- */

  /** The loop that prepares the shortcut statistics, over the first `c`
      cells: a statistics entry `(cell + 1, destination + 1)` per cell with
      a shortcut, in cell order, each usage summary starting with minimum
      `usageMin`. */
  function SolTable(solidxs: seq<Option<nat>>, soldsts: seq<nat>, c: nat, usageMin: nat): (r: seq<SolStats>)
    requires c <= |solidxs|
    requires forall k | 0 <= k < |solidxs| && solidxs[k].Some? :: solidxs[k].value < |soldsts|
    ensures |r| == Simulation.Present(solidxs[..c])
    ensures forall i | 0 <= i < |r| :: r[i].uses == ZeroValStats.(min := usageMin)
    ensures forall k | 0 <= k < c && solidxs[k].Some? ::
              && Simulation.Present(solidxs[..k]) < |r|
              && r[Simulation.Present(solidxs[..k])].sol == SnakesAndLadders.Sol(k + 1, soldsts[solidxs[k].value] + 1)
  {
    if c == 0 then []
    else
      var prev := SolTable(solidxs, soldsts, c - 1, usageMin);
      assert solidxs[..c][..c - 1] == solidxs[..c - 1];
      assert forall k | 0 <= k < c - 1 :: solidxs[..k] == solidxs[..c - 1][..k];
      match solidxs[c - 1]
      case None => prev
      case Some(idx) =>
        prev + [SolStats(SnakesAndLadders.Sol(c, soldsts[idx] + 1), ZeroValStats.(min := usageMin))]
  }

  /** The shortcuts the entries are about. */
  function Sols(sals: seq<SolStats>): (r: seq<SnakesAndLadders.Sol>)
    ensures |r| == |sals| && forall i | 0 <= i < |sals| :: r[i] == sals[i].sol
  {
    seq(|sals|, i requires 0 <= i < |sals| => sals[i].sol)
  }

  /** The uses of snakes among the usage counters. */
  function SnakeUses(sols: seq<SnakesAndLadders.Sol>, uses: seq<nat>): nat
    requires |uses| <= |sols|
  {
    if |uses| == 0 then 0
    else
      var n := |uses| - 1;
      SnakeUses(sols, uses[..n]) + (if sols[n].src > sols[n].dst then uses[n] else 0)
  }

  /** The uses of ladders among the usage counters. */
  function LadderUses(sols: seq<SnakesAndLadders.Sol>, uses: seq<nat>): nat
    requires |uses| <= |sols|
  {
    if |uses| == 0 then 0
    else
      var n := |uses| - 1;
      LadderUses(sols, uses[..n]) + (if sols[n].src < sols[n].dst then uses[n] else 0)
  }

  /** Every shortcut leads somewhere else. */
  predicate NoSelfLoops(sols: seq<SnakesAndLadders.Sol>)
  {
    forall i | 0 <= i < |sols| :: sols[i].src != sols[i].dst
  }

  /** Without self-loops every use is the use of a snake or of a ladder. */
  lemma {:induction false} SnakesPlusLadders(sols: seq<SnakesAndLadders.Sol>, uses: seq<nat>)
    requires |uses| <= |sols| && NoSelfLoops(sols)
    ensures SnakeUses(sols, uses) + LadderUses(sols, uses) == Sum(uses)
  {
    if |uses| > 0 {
      SnakesPlusLadders(sols, uses[..|uses| - 1]);
    }
  }

  /* ---------------------------------------------------------------- */
  /* The fold over the simulations                                    */
  /* ---------------------------------------------------------------- */

  /** One pass of the simulation loop of `stats_analyze`. */
  function AddSim(st: Stats, sim: Simulation.Simulation): (r: Stats)
    requires |sim.soluses| <= |st.sals|
    ensures |r.sals| == |st.sals| && Sols(r.sals) == Sols(st.sals)
    ensures r.sims == st.sims && r.dicelimit == st.dicelimit
    ensures r.winrate == st.winrate && r.lossrate == st.lossrate
    ensures r.snakesuserate == st.snakesuserate && r.laddersuserate == st.laddersuserate
  {
    var n := |sim.dices|;
    var sols := Sols(st.sals);
    var uses := sim.soluses;
    st.(
      wins := if sim.aborted then st.wins else st.wins + 1,
      losses := if sim.aborted then st.losses + 1 else st.losses,
      dices := Absorb(st.dices, n),
      shortestdices := KeepShortest(st.shortestdices, sim),
      sals := seq(|st.sals|, i requires 0 <= i < |st.sals| =>
                if i < |uses| then st.sals[i].(uses := Absorb(st.sals[i].uses, uses[i])) else st.sals[i]),
      salsuses := Absorb(st.salsuses, Sum(uses)),
      snakesuses := Absorb(st.snakesuses, SnakeUses(sols, uses)),
      laddersuses := Absorb(st.laddersuses, LadderUses(sols, uses)))
  }

  /** Every simulation has one usage counter per shortcut entry. */
  predicate CountersFit(sims: seq<Simulation.Simulation>, n: nat)
  {
    forall k | 0 <= k < |sims| :: |sims[k].soluses| == n
  }

  /** The simulations folded in, first to last. */
  function Fold(st: Stats, sims: seq<Simulation.Simulation>): (r: Stats)
    requires CountersFit(sims, |st.sals|)
    ensures |r.sals| == |st.sals| && Sols(r.sals) == Sols(st.sals)
    ensures r.sims == st.sims && r.dicelimit == st.dicelimit
    ensures r.winrate == st.winrate && r.lossrate == st.lossrate
    ensures r.snakesuserate == st.snakesuserate && r.laddersuserate == st.laddersuserate
  {
    if |sims| == 0 then st
    else
      var pre := sims[..|sims| - 1];
      assert CountersFit(pre, |st.sals|);
      AddSim(Fold(st, pre), sims[|sims| - 1])
  }

  /** The number of simulations that were not aborted. */
  function Wins(sims: seq<Simulation.Simulation>): nat
  {
    if |sims| == 0 then 0 else Wins(sims[..|sims| - 1]) + (if sims[|sims| - 1].aborted then 0 else 1)
  }

  /** No win means every simulation was aborted. */
  lemma {:induction false} NoWinsAllAborted(sims: seq<Simulation.Simulation>)
    ensures Wins(sims) == 0 <==> forall k | 0 <= k < |sims| :: sims[k].aborted
  {
    if |sims| > 0 {
      var pre := sims[..|sims| - 1];
      NoWinsAllAborted(pre);
      assert forall k | 0 <= k < |pre| :: pre[k] == sims[k];
    }
  }

  function DiceCounts(sims: seq<Simulation.Simulation>): (r: seq<nat>)
    ensures |r| == |sims| && forall k | 0 <= k < |sims| :: r[k] == |sims[k].dices|
  {
    seq(|sims|, k requires 0 <= k < |sims| => |sims[k].dices|)
  }

  function UseCounts(sims: seq<Simulation.Simulation>): (r: seq<nat>)
    ensures |r| == |sims| && forall k | 0 <= k < |sims| :: r[k] == Sum(sims[k].soluses)
  {
    seq(|sims|, k requires 0 <= k < |sims| => Sum(sims[k].soluses))
  }

  function SnakeCounts(sols: seq<SnakesAndLadders.Sol>, sims: seq<Simulation.Simulation>): (r: seq<nat>)
    requires CountersFit(sims, |sols|)
    ensures |r| == |sims| && forall k | 0 <= k < |sims| :: r[k] == SnakeUses(sols, sims[k].soluses)
  {
    seq(|sims|, k requires 0 <= k < |sims| => SnakeUses(sols, sims[k].soluses))
  }

  function LadderCounts(sols: seq<SnakesAndLadders.Sol>, sims: seq<Simulation.Simulation>): (r: seq<nat>)
    requires CountersFit(sims, |sols|)
    ensures |r| == |sims| && forall k | 0 <= k < |sims| :: r[k] == LadderUses(sols, sims[k].soluses)
  {
    seq(|sims|, k requires 0 <= k < |sims| => LadderUses(sols, sims[k].soluses))
  }

  /** The uses of shortcut `i` in every simulation. */
  function Column(sims: seq<Simulation.Simulation>, i: nat): (r: seq<nat>)
    requires forall k | 0 <= k < |sims| :: i < |sims[k].soluses|
    ensures |r| == |sims| && forall k | 0 <= k < |sims| :: r[k] == sims[k].soluses[i]
  {
    seq(|sims|, k requires 0 <= k < |sims| => sims[k].soluses[i])
  }

  /** The outcome counters of the fold: wins and losses count the
      simulations, and the roll-count summary summarises their lengths. */
  lemma {:induction false} FoldOutcomes(st: Stats, sims: seq<Simulation.Simulation>)
    requires CountersFit(sims, |st.sals|)
    ensures var r := Fold(st, sims);
            && r.wins == st.wins + Wins(sims)
            && r.wins + r.losses == st.wins + st.losses + |sims|
            && r.dices == AbsorbAll(st.dices, DiceCounts(sims))
  {
    if |sims| > 0 {
      var n := |sims| - 1;
      var pre := sims[..n];
      FoldOutcomes(st, pre);
      assert DiceCounts(sims)[..n] == DiceCounts(pre);
    }
  }

  /** The usage totals of the fold summarise the per-simulation totals. */
  lemma {:induction false} FoldTotals(st: Stats, sims: seq<Simulation.Simulation>)
    requires CountersFit(sims, |st.sals|)
    ensures var r := Fold(st, sims);
            && r.salsuses == AbsorbAll(st.salsuses, UseCounts(sims))
            && r.snakesuses == AbsorbAll(st.snakesuses, SnakeCounts(Sols(st.sals), sims))
            && r.laddersuses == AbsorbAll(st.laddersuses, LadderCounts(Sols(st.sals), sims))
  {
    if |sims| > 0 {
      var n := |sims| - 1;
      var pre := sims[..n];
      FoldTotals(st, pre);
      assert UseCounts(sims)[..n] == UseCounts(pre);
      assert SnakeCounts(Sols(st.sals), sims)[..n] == SnakeCounts(Sols(st.sals), pre);
      assert LadderCounts(Sols(st.sals), sims)[..n] == LadderCounts(Sols(st.sals), pre);
    }
  }

  /** The entry of shortcut `i` summarises that shortcut's uses over all
      simulations. */
  lemma {:induction false} FoldSals(st: Stats, sims: seq<Simulation.Simulation>, i: nat)
    requires CountersFit(sims, |st.sals|) && i < |st.sals|
    ensures Fold(st, sims).sals[i].uses == AbsorbAll(st.sals[i].uses, Column(sims, i))
  {
    if |sims| > 0 {
      var n := |sims| - 1;
      var pre := sims[..n];
      FoldSals(st, pre, i);
      assert Column(sims, i)[..n] == Column(pre, i);
    }
  }

  /** Snake and ladder uses add up to all uses, in every simulation and so
      in total. */
  lemma {:induction false} FoldSnakesPlusLadders(sols: seq<SnakesAndLadders.Sol>, sims: seq<Simulation.Simulation>)
    requires CountersFit(sims, |sols|) && NoSelfLoops(sols)
    ensures Sum(SnakeCounts(sols, sims)) + Sum(LadderCounts(sols, sims)) == Sum(UseCounts(sims))
  {
    if |sims| > 0 {
      var n := |sims| - 1;
      var pre := sims[..n];
      FoldSnakesPlusLadders(sols, pre);
      assert SnakeCounts(sols, sims)[..n] == SnakeCounts(sols, pre);
      assert LadderCounts(sols, sims)[..n] == LadderCounts(sols, pre);
      assert UseCounts(sims)[..n] == UseCounts(pre);
      SnakesPlusLadders(sols, sims[n].soluses);
    }
  }

  /** The rolls of the simulation loop's shortest win so far: replaced by
      a won simulation's rolls when none is kept yet or those are shorter. */
  function KeepShortest(cur: seq<nat>, sim: Simulation.Simulation): seq<nat>
  {
    if !sim.aborted && (|cur| == 0 || |cur| > |sim.dices|) then sim.dices else cur
  }

  /** The shortest win over a list of simulations. */
  function ShortestOf(cur: seq<nat>, sims: seq<Simulation.Simulation>): seq<nat>
  {
    if |sims| == 0 then cur else KeepShortest(ShortestOf(cur, sims[..|sims| - 1]), sims[|sims| - 1])
  }

  lemma {:induction false} FoldShortestOf(st: Stats, sims: seq<Simulation.Simulation>)
    requires CountersFit(sims, |st.sals|)
    ensures Fold(st, sims).shortestdices == ShortestOf(st.shortestdices, sims)
  {
    if |sims| > 0 {
      FoldShortestOf(st, sims[..|sims| - 1]);
    }
  }

  /** Simulation `w` is a win, every earlier win is strictly longer and
      every later win is at least as long. */
  predicate FirstLeast(sims: seq<Simulation.Simulation>, w: nat)
  {
    && w < |sims| && !sims[w].aborted
    && (forall k | 0 <= k < w && !sims[k].aborted :: |sims[k].dices| > |sims[w].dices|)
    && (forall k | w < k < |sims| && !sims[k].aborted :: |sims[k].dices| >= |sims[w].dices|)
  }

  /** A first least win stays one when a simulation that is no shorter win
      is added. */
  lemma FirstLeastKept(sims: seq<Simulation.Simulation>, w: nat)
    requires |sims| > 0 && FirstLeast(sims[..|sims| - 1], w)
    requires var last := sims[|sims| - 1]; last.aborted || |last.dices| >= |sims[w].dices|
    ensures FirstLeast(sims, w)
  {
    assert forall k | 0 <= k < |sims| - 1 :: sims[..|sims| - 1][k] == sims[k];
  }

  /** A win shorter than every earlier one is the first least win. */
  lemma FirstLeastLast(sims: seq<Simulation.Simulation>)
    requires |sims| > 0 && !sims[|sims| - 1].aborted
    requires forall k | 0 <= k < |sims| - 1 && !sims[k].aborted :: |sims[k].dices| > |sims[|sims| - 1].dices|
    ensures FirstLeast(sims, |sims| - 1)
  {
  }

  /** The shortest roll sequence kept: the rolls of the first simulation of
      least length among those not aborted, or none when none was won. Wins
      without any roll are excluded: they happen only on a board whose cell
      count is 0. */
  lemma {:induction false} ShortestFirstLeast(sims: seq<Simulation.Simulation>)
    requires forall k | 0 <= k < |sims| && !sims[k].aborted :: |sims[k].dices| > 0
    ensures ShortestOf([], sims) == [] <==> Wins(sims) == 0
    ensures ShortestOf([], sims) != [] ==>
              exists w: nat :: FirstLeast(sims, w) && ShortestOf([], sims) == sims[w].dices
  {
    if |sims| > 0 {
      var n := |sims| - 1;
      var pre := sims[..n];
      assert forall k | 0 <= k < n :: pre[k] == sims[k];
      ShortestFirstLeast(pre);
      var p := ShortestOf([], pre);
      var r := ShortestOf([], sims);
      var last := sims[n];
      if p != [] {
        var w: nat :| FirstLeast(pre, w) && p == pre[w].dices;
        if r == p {
          FirstLeastKept(sims, w);
        } else {
          FirstLeastLast(sims);
        }
      } else if !last.aborted {
        NoWinsAllAborted(pre);
        FirstLeastLast(sims);
      }
    }
  }

  /* ---------------------------------------------------------------- */
  /* stats_analyze                                                    */
  /* ---------------------------------------------------------------- */

  /** What `stats_analyze` stops on. */
  datatype AnalyzeError = NoSimulator | NoSimulations

  /** A simulator whose tables and counters the analysis can read. */
  predicate Analyzable(s: Simulation.Simulator)
  {
    && (forall c | 0 <= c < |s.solidxs| && s.solidxs[c].Some? :: s.solidxs[c].value < |s.soldsts|)
    && Simulation.Present(s.solidxs) == |s.soldsts|
    && CountersFit(s.sims, |s.soldsts|)
  }

  /** `x` out of `total`, in percent. */
  function Rate(x: nat, total: nat): real
    requires total > 0
  {
    x as real / total as real * 100.0
  }

  /** Rates of parts add up to the rate of the whole, and the whole is 100
      percent. */
  lemma RatesAddUp(a: nat, b: nat, total: nat)
    requires total > 0
    ensures Rate(a, total) + Rate(b, total) == Rate(a + b, total)
    ensures Rate(total, total) == 100.0
  {
    var t := total as real;
    assert a as real / t + b as real / t == (a + b) as real / t;
    assert t / t == 1.0;
  }

  /** The summary with its average over `n` values. */
  function Average(v: ValStats, n: nat): (r: ValStats)
    requires n > 0
    ensures r.sum == v.sum && r.min == v.min && r.max == v.max
    ensures r.avg * n as real == v.sum as real
  {
    v.(avg := v.sum as real / n as real)
  }

  /** The averages and rates after the fold; the snake and ladder rates are
      left as they are when no shortcut was used. */
  function Finish(st: Stats): (r: Stats)
    requires st.sims > 0
    ensures r.winrate == Rate(st.wins, st.sims) && r.lossrate == Rate(st.losses, st.sims)
    ensures st.salsuses.sum == 0 ==> r.snakesuserate == st.snakesuserate && r.laddersuserate == st.laddersuserate
    ensures st.salsuses.sum != 0 ==>
              r.snakesuserate == Rate(st.snakesuses.sum, st.salsuses.sum) &&
              r.laddersuserate == Rate(st.laddersuses.sum, st.salsuses.sum)
    ensures r.sims == st.sims && r.wins == st.wins && r.losses == st.losses && r.dicelimit == st.dicelimit
    ensures r.shortestdices == st.shortestdices
    ensures r.dices == Average(st.dices, st.sims) && r.salsuses == Average(st.salsuses, st.sims)
    ensures r.snakesuses == Average(st.snakesuses, st.sims) && r.laddersuses == Average(st.laddersuses, st.sims)
    ensures |r.sals| == |st.sals|
    ensures forall i | 0 <= i < |st.sals| :: r.sals[i] == st.sals[i].(uses := Average(st.sals[i].uses, st.sims))
  {
    var r := st.(
      dices := Average(st.dices, st.sims),
      sals := seq(|st.sals|, i requires 0 <= i < |st.sals| => st.sals[i].(uses := Average(st.sals[i].uses, st.sims))),
      salsuses := Average(st.salsuses, st.sims),
      snakesuses := Average(st.snakesuses, st.sims),
      laddersuses := Average(st.laddersuses, st.sims),
      winrate := Rate(st.wins, st.sims),
      lossrate := Rate(st.losses, st.sims));
    if st.salsuses.sum != 0 then
      r.(snakesuserate := Rate(st.snakesuses.sum, st.salsuses.sum),
         laddersuserate := Rate(st.laddersuses.sum, st.salsuses.sum))
    else r
  }

  /** The start of the fold for a simulator. */
  function Start(s: Simulation.Simulator, usageMin: nat): (r: Stats)
    requires Analyzable(s)
    ensures |r.sals| == |s.soldsts| && r.sims == |s.sims| && r.dicelimit == s.dicelimit
    ensures r.shortestdices == [] && r.wins == 0 && r.losses == 0
    ensures r.snakesuserate == 0.0 && r.laddersuserate == 0.0
    ensures r.dices == ZeroValStats.(min := U64_MAX)
    ensures r.salsuses == r.snakesuses == r.laddersuses == ZeroValStats.(min := usageMin)
    ensures forall i | 0 <= i < |r.sals| :: r.sals[i].uses == ZeroValStats.(min := usageMin)
  {
    assert s.solidxs[..|s.solidxs|] == s.solidxs;
    var usage := ZeroValStats.(min := usageMin);
    Initial.(sals := SolTable(s.solidxs, s.soldsts, |s.solidxs|, usageMin), sims := |s.sims|, dicelimit := s.dicelimit,
             salsuses := usage, snakesuses := usage, laddersuses := usage)
  }

  /** `stats_analyze` with the usage minima starting at `usageMin`. */
  function AnalyzeWith(simulator: Option<Simulation.Simulator>, usageMin: nat): (r: Result<Stats, AnalyzeError>)
    requires simulator.Some? ==> Analyzable(simulator.value)
    ensures simulator.None? <==> r == Failure(NoSimulator)
    ensures r == Failure(NoSimulations) <==> simulator.Some? && |simulator.value.sims| == 0
    ensures r.Success? ==>
              && r.value.sims == |simulator.value.sims| && r.value.dicelimit == simulator.value.dicelimit
              && |r.value.sals| == |simulator.value.soldsts|
  {
    match simulator
    case None => Failure(NoSimulator)
    case Some(s) =>
      if |s.sims| == 0 then Failure(NoSimulations)
      else
        Success(Finish(Fold(Start(s, usageMin), s.sims)))
  }

  /** `stats_analyze` as written: every usage minimum starts at 0. */
  function AnalyzeAsWritten(simulator: Option<Simulation.Simulator>): Result<Stats, AnalyzeError>
    requires simulator.Some? ==> Analyzable(simulator.value)
  {
    AnalyzeWith(simulator, 0)
  }

  /** `stats_analyze` with the usage minima starting at `ULONG_MAX`, like
      the roll-count minimum. */
  function Analyze(simulator: Option<Simulation.Simulator>): Result<Stats, AnalyzeError>
    requires simulator.Some? ==> Analyzable(simulator.value)
  {
    AnalyzeWith(simulator, U64_MAX)
  }

  /** The analysis of a simulator with simulations is the fold from its
      start, finished. */
  lemma AnalyzeIsFold(s: Simulation.Simulator, usageMin: nat)
    requires Analyzable(s) && |s.sims| > 0
    ensures AnalyzeWith(Some(s), usageMin) == Success(Finish(Fold(Start(s, usageMin), s.sims)))
  {
  }

  /** What the analysis reports: wins and losses count the simulations, the
      roll-count summary is exact, and the win and loss rates add up to
      100 percent. */
  lemma AnalyzeCounts(s: Simulation.Simulator, usageMin: nat)
    requires Analyzable(s) && |s.sims| > 0
    requires forall k | 0 <= k < |s.sims| :: |s.sims[k].dices| <= U64_MAX
    ensures var r := AnalyzeWith(Some(s), usageMin).value;
            && r.wins == Wins(s.sims) && r.wins + r.losses == r.sims == |s.sims|
            && r.dices.sum == Sum(DiceCounts(s.sims))
            && (exists k | 0 <= k < |s.sims| :: r.dices.min == |s.sims[k].dices|)
            && (forall k | 0 <= k < |s.sims| :: r.dices.min <= |s.sims[k].dices| <= r.dices.max)
            && (exists k | 0 <= k < |s.sims| :: r.dices.max == |s.sims[k].dices|)
            && r.winrate + r.lossrate == 100.0
  {
    var st := Start(s, usageMin);
    var f := Fold(st, s.sims);
    AnalyzeIsFold(s, usageMin);
    FoldOutcomes(st, s.sims);
    AbsorbAllSummary(st.dices, DiceCounts(s.sims));
    MaxMinFindsLeast(st.dices, DiceCounts(s.sims));
    RatesAddUp(f.wins, f.losses, f.sims);
    var r := Finish(f);
    assert r.dices.max >= DiceCounts(s.sims)[0];
  }

  /** Every usage summary, per shortcut and in total, sums the uses of all
      simulations, and its maximum is the largest of them. */
  lemma AnalyzeUses(s: Simulation.Simulator, usageMin: nat, i: nat)
    requires Analyzable(s) && |s.sims| > 0 && i < |s.soldsts|
    ensures var r := AnalyzeWith(Some(s), usageMin).value;
            && r.sals[i].uses.sum == Sum(Column(s.sims, i))
            && (forall k | 0 <= k < |s.sims| :: r.sals[i].uses.max >= s.sims[k].soluses[i])
            && (r.sals[i].uses.max == 0 || exists k | 0 <= k < |s.sims| :: r.sals[i].uses.max == s.sims[k].soluses[i])
            && r.salsuses.sum == Sum(UseCounts(s.sims))
  {
    var st := Start(s, usageMin);
    FoldSals(st, s.sims, i);
    FoldTotals(st, s.sims);
    AbsorbAllSummary(st.sals[i].uses, Column(s.sims, i));
    AbsorbAllSummary(st.salsuses, UseCounts(s.sims));
  }

  /** As written, every usage minimum reports 0. */
  lemma AsWrittenUsageMinima(s: Simulation.Simulator, i: nat)
    requires Analyzable(s) && |s.sims| > 0 && i < |s.soldsts|
    ensures var r := AnalyzeAsWritten(Some(s)).value;
            && r.sals[i].uses.min == 0
            && r.salsuses.min == 0 && r.snakesuses.min == 0 && r.laddersuses.min == 0
  {
    var st := Start(s, 0);
    FoldSals(st, s.sims, i);
    FoldTotals(st, s.sims);
    ZeroMinStaysZero(st.sals[i].uses, Column(s.sims, i));
    ZeroMinStaysZero(st.salsuses, UseCounts(s.sims));
    ZeroMinStaysZero(st.snakesuses, SnakeCounts(Sols(st.sals), s.sims));
    ZeroMinStaysZero(st.laddersuses, LadderCounts(Sols(st.sals), s.sims));
  }

  /** Starting the usage minima at `ULONG_MAX`, each reports the least
      number of uses of any simulation. */
  lemma CorrectedUsageMinima(s: Simulation.Simulator, i: nat)
    requires Analyzable(s) && |s.sims| > 0 && i < |s.soldsts|
    requires forall k | 0 <= k < |s.sims| :: s.sims[k].soluses[i] <= U64_MAX && Sum(s.sims[k].soluses) <= U64_MAX
    ensures var r := Analyze(Some(s)).value;
            && (exists k | 0 <= k < |s.sims| :: r.sals[i].uses.min == s.sims[k].soluses[i])
            && (forall k | 0 <= k < |s.sims| :: r.sals[i].uses.min <= s.sims[k].soluses[i])
            && (exists k | 0 <= k < |s.sims| :: r.salsuses.min == Sum(s.sims[k].soluses))
            && (forall k | 0 <= k < |s.sims| :: r.salsuses.min <= Sum(s.sims[k].soluses))
  {
    var st := Start(s, U64_MAX);
    FoldSals(st, s.sims, i);
    FoldTotals(st, s.sims);
    MaxMinFindsLeast(st.sals[i].uses, Column(s.sims, i));
    MaxMinFindsLeast(st.salsuses, UseCounts(s.sims));
  }

  /** A simulator with one shortcut, from cell 0 to cell 1, and one
      simulation that used it once. */
  const OneUseSimulator: Simulation.Simulator :=
    Simulation.Simulator(None, 0, [1], [Some(0), None], [Simulation.Simulation(false, 2, [1], [1])])

  lemma OneUseSimulatorAnalyzable()
    ensures Analyzable(OneUseSimulator)
    ensures |OneUseSimulator.sims| == 1 && |OneUseSimulator.soldsts| == 1
    ensures Sum(OneUseSimulator.sims[0].soluses) == 1 && OneUseSimulator.sims[0].soluses[0] == 1
  {
    var s := OneUseSimulator;
    assert s.solidxs[..1] == [Some(0)] && s.solidxs[..1][..0] == [];
    assert Simulation.Present(s.solidxs) == 1;
    assert [1][..0] == [];
  }

  /** When every simulation used some shortcut, the source still reports a
      least total of 0 uses, while the corrected analysis reports at least 1. */
  lemma UsageMinimumGap(s: Simulation.Simulator)
    requires Analyzable(s) && |s.sims| > 0 && |s.soldsts| > 0
    requires forall k | 0 <= k < |s.sims| :: 0 < Sum(s.sims[k].soluses) <= U64_MAX && s.sims[k].soluses[0] <= U64_MAX
    ensures AnalyzeAsWritten(Some(s)).value.salsuses.min == 0
    ensures Analyze(Some(s)).value.salsuses.min > 0
  {
    AsWrittenUsageMinima(s, 0);
    CorrectedUsageMinima(s, 0);
  }

  /** A simulator whose only simulation used a shortcut once, such as
      `OneUseSimulator`: the source reports 0 as the least total of uses,
      the corrected analysis 1. */
  lemma UsageMinimumExample(s: Simulation.Simulator)
    requires Analyzable(s) && |s.sims| == 1 && |s.soldsts| > 0
    requires Sum(s.sims[0].soluses) == 1 && s.sims[0].soluses[0] <= 1
    ensures AnalyzeAsWritten(Some(s)).value.salsuses.min == 0
    ensures Analyze(Some(s)).value.salsuses.min == 1
  {
    UsageMinimumGap(s);
    CorrectedUsageMinima(s, 0);
  }

  /** A board without self-loops has none in its shortcut table. */
  lemma StartNoSelfLoops(s: Simulation.Simulator, usageMin: nat)
    requires Analyzable(s)
    requires forall c | 0 <= c < |s.solidxs| && s.solidxs[c].Some? :: s.soldsts[s.solidxs[c].value] != c
    ensures NoSelfLoops(Sols(Start(s, usageMin).sals))
  {
    var sols := Sols(Start(s, usageMin).sals);
    forall j | 0 <= j < |sols| ensures sols[j].src != sols[j].dst {
      SolTableCells(s, usageMin, j);
    }
  }

  /** Without self-loops, folding from empty summaries keeps the snake and
      ladder uses adding up to all uses. */
  lemma FoldSplitsUses(st: Stats, sims: seq<Simulation.Simulation>)
    requires CountersFit(sims, |st.sals|) && NoSelfLoops(Sols(st.sals))
    requires st.salsuses.sum == 0 && st.snakesuses.sum == 0 && st.laddersuses.sum == 0
    ensures var f := Fold(st, sims);
            f.snakesuses.sum + f.laddersuses.sum == f.salsuses.sum
  {
    var sols := Sols(st.sals);
    FoldTotals(st, sims);
    AbsorbAllSummary(st.salsuses, UseCounts(sims));
    AbsorbAllSummary(st.snakesuses, SnakeCounts(sols, sims));
    AbsorbAllSummary(st.laddersuses, LadderCounts(sols, sims));
    FoldSnakesPlusLadders(sols, sims);
  }

  /** On a board without self-loops the snake and ladder uses add up to all
      uses, and so do their rates, when any shortcut was used. */
  lemma AnalyzeSnakesAndLadders(s: Simulation.Simulator, usageMin: nat)
    requires Analyzable(s) && |s.sims| > 0
    requires forall c | 0 <= c < |s.solidxs| && s.solidxs[c].Some? :: s.soldsts[s.solidxs[c].value] != c
    ensures var r := AnalyzeWith(Some(s), usageMin).value;
            && r.snakesuses.sum + r.laddersuses.sum == r.salsuses.sum
            && (r.salsuses.sum != 0 ==> r.snakesuserate + r.laddersuserate == 100.0)
            && (r.salsuses.sum == 0 ==> r.snakesuserate == 0.0 && r.laddersuserate == 0.0)
  {
    var st := Start(s, usageMin);
    var f := Fold(st, s.sims);
    AnalyzeIsFold(s, usageMin);
    StartNoSelfLoops(s, usageMin);
    FoldSplitsUses(st, s.sims);
    if f.salsuses.sum != 0 {
      RatesAddUp(f.snakesuses.sum, f.laddersuses.sum, f.salsuses.sum);
    }
  }

  /** Every entry of the shortcut table is `(c + 1, soldsts[idx] + 1)` for
      a cell `c` with a shortcut. */
  lemma SolTableCells(s: Simulation.Simulator, usageMin: nat, j: nat)
    requires Analyzable(s) && j < |s.soldsts|
    ensures var t := Start(s, usageMin).sals;
            exists c | 0 <= c < |s.solidxs| && s.solidxs[c].Some? ::
              t[j].sol == SnakesAndLadders.Sol(c + 1, s.soldsts[s.solidxs[c].value] + 1)
  {
    assert s.solidxs[..|s.solidxs|] == s.solidxs;
    SolTableCellsUpTo(s.solidxs, s.soldsts, |s.solidxs|, usageMin, j);
  }

  lemma {:induction false} SolTableCellsUpTo(solidxs: seq<Option<nat>>, soldsts: seq<nat>, c: nat, usageMin: nat, j: nat)
    requires c <= |solidxs|
    requires forall k | 0 <= k < |solidxs| && solidxs[k].Some? :: solidxs[k].value < |soldsts|
    requires j < Simulation.Present(solidxs[..c])
    ensures exists k | 0 <= k < c && solidxs[k].Some? ::
              SolTable(solidxs, soldsts, c, usageMin)[j].sol == SnakesAndLadders.Sol(k + 1, soldsts[solidxs[k].value] + 1)
  {
    var prev := SolTable(solidxs, soldsts, c - 1, usageMin);
    assert solidxs[..c][..c - 1] == solidxs[..c - 1];
    if j < |prev| {
      SolTableCellsUpTo(solidxs, soldsts, c - 1, usageMin, j);
    } else {
      assert solidxs[c - 1].Some?;
    }
  }
}

=== FILE: strings.dfy ===
/** The string helpers of src/str.c. C strings are modelled as `string`
    values without their terminating NUL; a NULL `char*` is `None`. */
module Strings {
  import opened Common

  /** The two parts `strsplitnext` returns. */
  datatype TwoStrs = TwoStrs(first: Option<string>, second: Option<string>)

  /** Index of the first occurrence of `c` in `s`, or `|s|` when there is none. */
  function IndexOf(s: string, c: char): (i: nat)
    ensures i <= |s|
    ensures i < |s| ==> s[i] == c
    ensures forall j | 0 <= j < i :: s[j] != c
  {
    if |s| == 0 then 0
    else if s[0] == c then 0
    else 1 + IndexOf(s[1..], c)
  }

  /** `strsplitnext`: split at the first occurrence of `splitchar`. The part
      before it and the part after it are returned; without an occurrence the
      whole string comes back as the first part and the second is NULL. */
  function SplitNext(str: Option<string>, splitchar: char): (r: TwoStrs)
    ensures str.None? ==> r == TwoStrs(None, None)
    ensures str.Some? && splitchar !in str.value ==> r == TwoStrs(str, None)
    ensures str.Some? && splitchar in str.value ==>
              && r.first.Some? && r.second.Some?
              && r.first.value + [splitchar] + r.second.value == str.value
              && splitchar !in r.first.value
  {
    match str
    case None => TwoStrs(None, None)
    case Some(s) =>
      var i := IndexOf(s, splitchar);
      if i == |s| then TwoStrs(str, None)
      else
        assert s[..i] + [splitchar] + s[i + 1..] == s;
        TwoStrs(Some(s[..i]), Some(s[i + 1..]))
  }

  /** `strduplicate`: a copy of the string, character by character as
      `strcpy` makes it, or NULL for NULL. A failing `malloc` is not
      modelled. */
  method Duplicate(str: Option<string>) returns (r: Option<string>)
    ensures r.None? <==> str.None?
    ensures r.Some? ==> |r.value| == |str.value| && forall k | 0 <= k < |r.value| :: r.value[k] == str.value[k]
  {
    if str.None? {
      return None;
    }
    var s := str.value;
    var copy: string := [];
    var i := 0;
    while i < |s|
      invariant 0 <= i <= |s|
      invariant copy == s[..i]
    {
      copy := copy + [s[i]];
      i := i + 1;
    }
    return Some(copy);
  }

  /** `iswhitespace`: the six whitespace characters of the C locale. */
  function IsWhitespace(c: char): (b: bool)
    ensures b <==> c as int in {0x20, 0x09, 0x0A, 0x0D, 0x0C, 0x0B}
  {
    match c
    case ' ' => true
    case '\t' => true
    case '\n' => true
    case '\r' => true
    case '\U{000C}' => true
    case '\U{000B}' => true
    case _ => false
  }

  /** The tokens a `do { strsplitnext } while (second part)` loop visits:
      `s` cut at every occurrence of `sep`. */
  function SplitAll(s: string, sep: char): (ts: seq<string>)
    ensures |ts| >= 1
    ensures forall k | 0 <= k < |ts| :: sep !in ts[k]
    decreases |s|
  {
    var parts := SplitNext(Some(s), sep);
    if parts.second.None? then [s]
    else [parts.first.value] + SplitAll(parts.second.value, sep)
  }

  /** The tokens joined with `sep` between neighbours. */
  function Join(ts: seq<string>, sep: char): string
    requires |ts| >= 1
  {
    if |ts| == 1 then ts[0] else ts[0] + [sep] + Join(ts[1..], sep)
  }

  /** Splitting and joining are inverse: joining the tokens restores the string. */
  lemma {:induction false} JoinSplitAll(s: string, sep: char)
    ensures Join(SplitAll(s, sep), sep) == s
    decreases |s|
  {
    var parts := SplitNext(Some(s), sep);
    if parts.second.Some? {
      JoinSplitAll(parts.second.value, sep);
    }
  }

  /** ... and splitting a join of separator-free tokens gives the tokens back. */
  lemma {:induction false} SplitAllJoin(ts: seq<string>, sep: char)
    requires |ts| >= 1
    requires forall k | 0 <= k < |ts| :: sep !in ts[k]
    ensures SplitAll(Join(ts, sep), sep) == ts
    decreases |ts|
  {
    if |ts| == 1 {
    } else {
      var s := Join(ts, sep);
      var rest := Join(ts[1..], sep);
      assert s == ts[0] + [sep] + rest;
      var i := IndexOf(s, sep);
      assert i == |ts[0]| by {
        assert s[|ts[0]|] == sep;
        forall j | 0 <= j < |ts[0]| ensures s[j] != sep {
          assert s[j] == ts[0][j];
        }
      }
      assert s[..i] == ts[0];
      assert s[i + 1..] == rest;
      SplitAllJoin(ts[1..], sep);
    }
  }
}
